=== FILE: README.md ===
# Blood-donation web client: the page logic in Dafny

This project models the client-side logic of a blood-donation web application (React/TypeScript). The admin console lists appointments, donors, events and users. It creates donation events, manages users and edits donation centers on a map. The public site has a registration form.

What is modelled here is the part of those pages that is logic rather than rendering:

- **List filters.** Each list is narrowed by a case-insensitive substring search and, where there is one, by an exact-match drop-down whose empty value or "all" label imposes nothing (`Search`, `Appointments`, `Donors`, `Events`, `Users`).
- **Appointment grouping.** The filtered appointments are grouped by date with an insertion-ordered reduce (`Appointments`).
- **The two form validators.** The event form and the registration form each build a field-to-message map, and the form is accepted when that map is empty. Both pages also have the shared change handler that blanks the edited field's message. The event form has a blood-type checkbox toggle (`AddEvent`, `Register`).
- **List updates after a server reply.** These are: deleting a user; replacing a user after a role change; and adding, updating or deleting a center (`Users`, `CenterMap`).
- **The center map editor.** It is a small state machine whose two panels are never open together (`CenterMap`).
- **The admin sidebar.** Its "is this link active" predicate is modelled (`AdminSidebar`).

Supporting modules:

- `Text` models the JavaScript string operations used: `trim`, ASCII `toLowerCase`, `includes`, `startsWith`, and `length` in UTF-16 code units.
- `Lists` models `filter`, `map`-replace and the subsequence order they keep.
- `Http` models how a settled request reaches a handler. That covers a missing token, a response that is not `ok`, and a thrown error with the `error.message || fallback` pattern.

Every handler is a pure function from the page state, plus the user's input and the server's reply, to the next page state. The network, browser storage, timers and OAuth are not modelled; their outcomes are parameters.

## Model

| member | source | states |
|---|---|---|
| `Text.Trim` | src/pages/Register.tsx:90 | `trim` returns the input with a blank prefix and a blank suffix cut off. The result is empty exactly when the input is all ECMAScript white space, and otherwise starts and ends with a non-space character |
| `Text.Lower` | src/pages/admin/Appointments.tsx:124-125 | `toLowerCase` keeps the length and lowercases each character on its own: ASCII capitals become small letters and every other character stays |
| `Text.Capitalize` | src/pages/admin/Appointments.tsx:288 | `charAt(0).toUpperCase() + slice(1)` keeps the length, uppercases the first character and keeps the rest; only the empty string gives the empty string |
| `Text.Includes` | src/pages/admin/Appointments.tsx:124-125 | `includes` holds exactly when the needle occurs as a contiguous slice of the haystack at some index |
| `Text.Utf16Length` | src/pages/Register.tsx:102 | `length` counts UTF-16 code units: between one and two per character, and equal to the character count exactly when no character lies above U+FFFF |
| `Lists.Filter` | src/pages/admin/Users.tsx:81 | `filter` returns an order-preserving subsequence of its input, so it is never longer |
| `Lists.FilterMembers` | src/pages/admin/Users.tsx:81 | an element is in the filter's result exactly when it is in the input and passes the test |
| `Lists.FilterCounts` | src/pages/admin/Users.tsx:81 | each passing element is kept as often as it occurs, and each failing one is dropped entirely |
| `Lists.FilterAppend` | src/pages/admin/AddEvent.tsx:44-46 | filtering distributes over concatenation |
| `Lists.SubseqBounds` | src/pages/admin/Donors.tsx:173 | a subsequence is never longer than the list it comes from, so "Showing n of m" never has n above m |
| `Lists.NoDuplicatesWithin` | src/pages/admin/AddEvent.tsx:43-52 | a list without repeats whose entries all come from another list is no longer than it |
| `Lists.ReplaceWhere` | src/pages/admin/Users.tsx:109 | the `map` replacement keeps the length, puts the new record at every matching position and leaves every other element as it was |
| `Http.AuthorizedFetch` | src/pages/admin/Users.tsx:31-53 | a request succeeds exactly when a non-empty token is stored and the reply is `ok`, and then yields the body. A missing token reports the "No JWT token" message and a non-`ok` reply the handler's message. Every failure carries a non-empty message |
| `Search.FieldMatches` | src/pages/admin/Appointments.tsx:124-125 | the lowercased `includes` search never matches a query longer than the field |
| `Search.SelectorAllows` | src/pages/admin/Donors.tsx:31-33 | the empty selector and the "all" label let every value through, and any other selector exactly the values equal to it |
| `Search.FieldMatchesIgnoringCase` | src/pages/admin/Appointments.tsx:124-125 | the lowercased `includes` search matches exactly when the query occurs in the field at some index up to ASCII letter case |
| `Search.EmptyQueryMatches` | src/pages/admin/Appointments.tsx:124-125 | the empty query matches every field |
| `Search.MatchIgnoresQueryCase` | src/pages/admin/Users.tsx:119-123 | two queries that differ only in letter case match the same fields |
| `Search.SelectorOptionsOffered` | src/pages/Events.tsx:125-130 | a drop-down built as `""` plus `choices.slice(1)` offers every real choice and never the "all" label. Picking any non-empty offered value filters by exact equality |
| `Appointments.FilterAppointments` | src/pages/admin/Appointments.tsx:123-130 | the result is an order-preserving subsequence, every appointment in it passes both the search and the status test, and every appointment that passes both is in it, as often as it is listed |
| `Appointments.AllStatusesSearchOnly` | src/pages/admin/Appointments.tsx:127 | with the status `all`, the result is the search filter alone |
| `Appointments.EmptyFilterShowsAll` | src/pages/admin/Appointments.tsx:124-127 | an empty search with status `all` lists every appointment in order |
| `Appointments.FirstDates` | src/pages/admin/Appointments.tsx:133-139 | the distinct dates of a list in first-appearance order: no repeats, every date of the list is there, and nothing else is |
| `Appointments.GroupByDate` | src/pages/admin/Appointments.tsx:133-139 | the grouping reduce never yields more groups than appointments, and no group is empty |
| `Appointments.AddToGroups` | src/pages/admin/Appointments.tsx:134-137 | one reduce step appends to the group of its date when there is one, and otherwise opens a new group at the end |
| `Appointments.AddToGroupsCounts` | src/pages/admin/Appointments.tsx:134-137 | one reduce step adds exactly that appointment to the grouped appointments |
| `Appointments.GroupDates` | src/pages/admin/Appointments.tsx:133-139 | there is one group per distinct date, in order of first appearance |
| `Appointments.GroupByDateCorrect` | src/pages/admin/Appointments.tsx:133-139 | each group holds exactly the appointments of its date, in their original relative order. Together the groups are a permutation of the input |
| `Appointments.NoGroupsIffEmpty` | src/pages/admin/Appointments.tsx:133-139 | there are no groups (the "No appointments found" branch) exactly when the filtered list is empty |
| `Appointments.ContiguousGroupsFlatten` | src/pages/admin/Appointments.tsx:133-139 | when appointments of one date are adjacent, concatenating the groups gives back the list itself |
| `Appointments.InterleavedDatesReordered` | src/pages/admin/Appointments.tsx:133-139 | with dates d1, d2, d1 the groups read back as first, third, second, which is not the filtered order |
| `Appointments.StatusBadgeClasses` | src/pages/admin/Appointments.tsx:146-159 | a status gets the gray default class exactly when it is not one of the four known statuses |
| `Appointments.BadgesDistinct` | src/pages/admin/Appointments.tsx:146-159 | no two known statuses share a badge class |
| `Appointments.StatusLabelInjective` | src/pages/admin/Appointments.tsx:288 | capitalising the first character keeps distinct lower-case statuses distinct |
| `Appointments.StatusLabel` | src/pages/admin/Appointments.tsx:288 | the status cell keeps the status's length and all but its first character, which is uppercased |
| `Appointments.StatusOptionsMatchLabels` | src/pages/admin/Appointments.tsx:115-121 | the status drop-down offers `all` and then exactly the known statuses, each captioned as the table labels it |
| `Donors.FilterDonors` | src/pages/admin/Donors.tsx:27-36 | the result is an order-preserving subsequence that is never longer than the list, holding exactly the donors that pass the search and the blood-type test, each as often as it is listed |
| `Donors.UnrestrictedBloodType` | src/pages/admin/Donors.tsx:31-32 | a blood-type selector of `""` or "All Types" leaves only the search to decide |
| `Donors.ExactBloodType` | src/pages/admin/Donors.tsx:33 | any other selector keeps exactly the donors whose blood type equals it |
| `Donors.LocationIgnored` | src/pages/admin/Donors.tsx:28-29 | a donor's location never affects whether it is listed |
| `Donors.BloodTypeOptions` | src/pages/admin/Donors.tsx:76-80 | the drop-down offers `""` and the eight blood groups, never "All Types" |
| `Events.FilterEvents` | src/pages/Events.tsx:83-93 | the result is an order-preserving subsequence holding exactly the events that pass the search over title, description and location and the location test, each as often as it is listed |
| `Events.LocationSelector` | src/pages/Events.tsx:88-90 | a location of `""` or "All Locations" imposes nothing, and any other keeps exactly the events at that location |
| `Events.ClearedFiltersShowAll` | src/pages/Events.tsx:146-150 | after "Clear Filters" every event is listed again, in order |
| `Events.LocationOptions` | src/pages/Events.tsx:125-130 | the location drop-down offers every venue and never "All Locations" |
| `Users.FilterUsers` | src/pages/admin/Users.tsx:118-125 | the result is an order-preserving subsequence, never longer than the list, holding exactly the users whose username, e-mail or role matches, each as often as it is listed |
| `Users.FetchUsers` | src/pages/admin/Users.tsx:28-56 | loading ends off. A success installs the server's list with no error. Any failure keeps the old list and sets a non-empty error, the token message when there is no token |
| `Users.DeleteUser` | src/pages/admin/Users.tsx:58-86 | declining the confirmation changes nothing. A success removes exactly the users with that id and keeps every other user in order, as often as it was listed. A failure keeps the list and reports an error. Nothing else changes |
| `Users.UpdateRole` | src/pages/admin/Users.tsx:88-116 | a success replaces exactly the users with that id by the server's record, keeps the length and closes the modal. A failure keeps the list and the modal and reports an error |
| `Users.OpenRoleModal` | src/pages/admin/Users.tsx:230-233 | "Change Role" selects that user and shows the modal, changing nothing else |
| `Users.CancelRoleModal` | src/pages/admin/Users.tsx:311-314 | "Cancel" clears the selection and hides the modal, changing nothing else |
| `Users.ModalLifecycle` | src/pages/admin/Users.tsx:282 | opening shows the modal; cancelling or a successful update hides it; a failed update leaves it as it was |
| `AddEvent.HandleChange` | src/pages/admin/AddEvent.tsx:27-41 | the edited field takes the value and then shows no message. Every other field, every other message and the set of keys with a message are kept |
| `AddEvent.ToggleBloodType` | src/pages/admin/AddEvent.tsx:43-52 | toggling flips whether the type is listed and never changes membership of another type. A new type is appended at the end; removing one keeps the others in order |
| `AddEvent.ToggleTwiceRestores` | src/pages/admin/AddEvent.tsx:43-52 | ticking an unticked type and unticking it again gives back the original list |
| `AddEvent.ToggleKeepsSet` | src/pages/admin/AddEvent.tsx:43-52 | toggling never lists a type twice, and toggling twice gives back the same set of types |
| `AddEvent.TogglesStayOffered` | src/pages/admin/AddEvent.tsx:290-297 | clicking only the offered checkboxes, from a list of offered groups without repeats, keeps it so, and so never lists more than the eight groups |
| `AddEvent.IsPositive` | src/pages/admin/AddEvent.tsx:83 | a value passes `!isNaN(n) && !(n <= 0)` only when it is neither NaN nor minus infinity; a finite value passes exactly when it is above zero |
| `AddEvent.NumberError` | src/pages/admin/AddEvent.tsx:81-91 | an empty input gets the "required" message; a non-empty one gets the "positive number" message exactly when its number does not pass, and no message otherwise |
| `AddEvent.FieldErrorMeaning` | src/pages/admin/AddEvent.tsx:54-96 | a rule records a message exactly when it fails: title, location and address when blank after `trim`; date and times when empty; capacity and staff when empty or not a positive number; blood types when none is ticked |
| `AddEvent.Validate` | src/pages/admin/AddEvent.tsx:54-98 | the error map holds exactly the fields whose rule fails, each with its non-empty message |
| `AddEvent.NumberMessages` | src/pages/admin/AddEvent.tsx:81-91 | capacity and staff carry the "required" message when empty and the "positive number" message otherwise, never both |
| `AddEvent.ValidateAccepts` | src/pages/admin/AddEvent.tsx:97-98 | the form is accepted exactly when every rule holds |
| `AddEvent.EmptyFormRejected` | src/pages/admin/AddEvent.tsx:54-96 | a form with nothing filled in is flagged on every field but description and image URL |
| `AddEvent.Submit` | src/pages/admin/AddEvent.tsx:101-134 | once the browser lets the submit through, `handleSubmit` sets the error map to the validation result. An invalid form is kept. A successful submit resets every field to empty. Submitting is off at the end |
| `Register.HandleChange` | src/pages/Register.tsx:71-85 | the edited field takes the value and then shows no message. Every other field, every other message and the rest of the page are kept |
| `Register.MatchesEmailPattern` | src/pages/Register.tsx:96 | a string the e-mail pattern matches has at least five characters, among them an `@` and a `.` |
| `Register.TestEmailPattern` | src/pages/Register.tsx:96 | the scan for `/\S+@\S+\.\S+/` answers true exactly when some `@` and a later `.` have non-space characters before, between and after them |
| `Register.PatternNotBlank` | src/pages/Register.tsx:94-98 | an e-mail the pattern matches is never blank, so the "required" test only picks the message |
| `Register.DropDownBloodType` | src/pages/Register.tsx:233-237 | a blood type picked from the drop-down passes the rule, "Unknown" included; only the placeholder `""` fails it |
| `Register.FieldErrorMeaning` | src/pages/Register.tsx:87-112 | a rule records a message exactly when it fails: a blank name; an e-mail the pattern does not match; a password under eight UTF-16 units; a confirmation that differs; no blood type |
| `Register.Validate` | src/pages/Register.tsx:87-116 | the error map holds exactly the fields whose rule fails, each with its non-empty message |
| `Register.EmailAndPasswordMessages` | src/pages/Register.tsx:94-104 | a failing e-mail reads "required" when blank and "invalid" otherwise. A failing password reads "required" when empty and "at least 8 characters" otherwise |
| `Register.ValidateAccepts` | src/pages/Register.tsx:114-115 | the form is accepted exactly when every rule holds |
| `Register.Submit` | src/pages/Register.tsx:118-139 | the banner is cleared and the errors replaced by validation. An invalid form stops there. A valid one either navigates to `/login` or shows the failure banner, and loading ends off. The form is never touched |
| `Register.SubmitNavigatesOnlyWhenValid` | src/pages/Register.tsx:118-133 | once the browser lets the submit through, `handleSubmit` navigates to `/login` exactly when every rule holds and the registration succeeds |
| `Register.GoogleSuccess` | src/pages/Register.tsx:33-63 | on success it stores the user, overwrites only name and e-mail (absent values read as `""`) and clears every message. A failed reply only sets the banner |
| `Register.GoogleError` | src/pages/Register.tsx:67 | a failed Google login only sets the "Google login failed" banner |
| `Register.PrefillDecidesNameAndEmail` | src/pages/Register.tsx:51-58 | after a pre-fill, whether name and e-mail pass depends only on the Google account |
| `Register.PrefillWithoutName` | src/pages/Register.tsx:53 | an account without a name leaves a name the validator rejects |
| `CenterMap.FetchCenters` | src/pages/admin/UserTracking.tsx:42-52 | a reply with data installs the centers. A falsy body changes nothing. A failure sets the "Failed to load hospitals" banner and keeps the markers |
| `CenterMap.FetchPositions` | src/pages/admin/UserTracking.tsx:55-66 | the same for the tracked positions, with their own banner |
| `CenterMap.Locate` | src/pages/admin/UserTracking.tsx:32-39 | the device position is recorded and nothing else changes |
| `CenterMap.View` | src/pages/admin/UserTracking.tsx:148-149 | the `center`/`zoom` props passed to `MapContainer` are the device position and 12 once it is known, and otherwise the default center and 6 (related to the events by `CenterMap.RunView`) |
| `CenterMap.ViewFollowsLocate` | src/pages/admin/UserTracking.tsx:32-39 | on the initial page the `center`/`zoom` props are the default center and 6; after a geolocation report they are the device position and 12 |
| `CenterMap.MapClick` | src/pages/admin/UserTracking.tsx:68-81 | a click near a center changes nothing. A click elsewhere opens the add panel there with an empty form and closes the edit panel, keeping the markers |
| `CenterMap.ClickOnCenterIgnored` | src/pages/admin/UserTracking.tsx:72-74 | a click exactly on a center's position never opens the add panel |
| `CenterMap.MarkerClick` | src/pages/admin/UserTracking.tsx:169-172 | a marker click selects that center and closes the add panel, changing nothing else |
| `CenterMap.EditFormName` | src/pages/admin/UserTracking.tsx:204 | the add panel's name input changes only the form name |
| `CenterMap.EditFormAdmin` | src/pages/admin/UserTracking.tsx:211 | the add panel's id input changes only the form's admin id |
| `CenterMap.ApplyEdit` | src/pages/admin/UserTracking.tsx:222-250 | each edit-panel input sets its own field of the center and keeps every other field, the id among them |
| `CenterMap.EditSelected` | src/pages/admin/UserTracking.tsx:222-250 | an edit-panel input makes the selection the edited center, keeping its id, and changes nothing else; it does nothing without a selection |
| `CenterMap.Payload` | src/pages/admin/UserTracking.tsx:93-98 | the posted body carries the form's name and admin id and the clicked coordinates (used by `CenterMap.AddedSpotTaken`) |
| `CenterMap.AddCenter` | src/pages/admin/UserTracking.tsx:90-107 | nothing happens without a pending location or on failure. A success appends the server's record after the existing markers and closes the add panel, changing nothing else |
| `CenterMap.AddedSpotTaken` | src/pages/admin/UserTracking.tsx:72-103 | when the server stores the posted body, the new marker carries the form's name and admin id, and clicking the same spot again changes nothing |
| `CenterMap.UpdateCenter` | src/pages/admin/UserTracking.tsx:109-121 | nothing happens without a selection or on failure. A success replaces exactly the centers with the selection's id, keeps the length and closes the edit panel, changing nothing else |
| `CenterMap.UpdateKeepsIds` | src/pages/admin/UserTracking.tsx:114-116 | an update never changes which id sits at which position, and every center with the edited id then equals the selection |
| `CenterMap.DeleteCenter` | src/pages/admin/UserTracking.tsx:123-131 | a failure changes nothing. A success keeps an order-preserving subsequence holding exactly the centers with another id, and closes the edit panel, changing nothing else |
| `CenterMap.DeleteKeepsOthers` | src/pages/admin/UserTracking.tsx:126 | a successful delete keeps every other center exactly as often as it was there |
| `CenterMap.Apply` | src/pages/admin/UserTracking.tsx:32-131 | every event keeps the two panels from both being open, and only a geolocation report moves the device position |
| `CenterMap.StepKeepsOnePanel` | src/pages/admin/UserTracking.tsx:68-131 | no event opens the add panel and the edit panel together if they were not both open |
| `CenterMap.RunKeepsOnePanel` | src/pages/admin/UserTracking.tsx:68-131 | no sequence of events does either |
| `CenterMap.NeverBothPanels` | src/pages/admin/UserTracking.tsx:196-254 | from the page's initial state the two forms are never shown together |
| `CenterMap.RunView` | src/pages/admin/UserTracking.tsx:32-39 | over any sequence of events the `center`/`zoom` props passed to `MapContainer` follow the last geolocation report; clicks, edits and server replies never change them |
| `CenterMap.DefaultViewUntilLocated` | src/pages/admin/UserTracking.tsx:148-149 | from the initial page the `center`/`zoom` props stay the default center and 6 exactly until the device is first located |
| `AdminSidebar.IsActive` | src/components/AdminSidebar.tsx:33-37 | the `/admin` special case only narrows the `startsWith` rule: an active link's path always starts the route |
| `AdminSidebar.AdminRootOnlyOnDonors` | src/components/AdminSidebar.tsx:33-35 | a link to `/admin` is active exactly on `/admin/donors` |
| `AdminSidebar.ActiveBelowPath` | src/components/AdminSidebar.tsx:36 | any other link is active exactly on routes that extend its path |
| `AdminSidebar.ActiveOnOwnRoute` | src/components/AdminSidebar.tsx:36 | such a link is active on its own route and on every longer route below it |
| `AdminSidebar.NoLinkToRoot` | src/components/AdminSidebar.tsx:23-30 | no sidebar link uses `/admin`, so the special case is never reached from the sidebar |
| `AdminSidebar.NavPathsPrefixFree` | src/components/AdminSidebar.tsx:23-30 | no sidebar path is a prefix of another |
| `AdminSidebar.AtMostOneActive` | src/components/AdminSidebar.tsx:23-37 | on any route at most one sidebar link is highlighted |

## Left out

- Network, storage and OAuth. `fetch`/`axios` requests, `localStorage` reads and writes, and the Google token exchange are left out. Each handler takes the settled reply (and the stored token) as an input. The simulated one-and-a-half-second submits of the two forms become a `succeeded` flag.
- Interleaving of asynchronous handlers. Each handler is one atomic transition from the state it started in. React's batching of state updates, and a reply arriving after a later event, are not modelled.
- Number coercion. `Number(...)` in the event form is an input function to a `JsNumber` (NaN, finite, or an infinity). The map's `+value`, `parseFloat` and `parseInt` edits take the parsed value directly. A NaN produced there has no representation.
- CenterMap.EditFormAdmin: the admin id is an integer, so a fractional `+value` result from the number input is not represented.
- `CenterMap.Near`: coordinates are exact reals. The 0.001-degree proximity test is evaluated without IEEE-754 rounding of the subtraction.
- Lone surrogates. A Dafny `string` holds Unicode scalar values, so a JavaScript string with an unpaired UTF-16 surrogate has no representation. `Text.Utf16Length` and `Text.Trim` are stated for well-formed strings only.
- Unicode case mapping. `toLowerCase`/`toUpperCase` are modelled on ASCII letters only; other characters are kept as they are.
- Date formatting (`formatDate` through `Intl`) and the order of `Object.entries`. Dates are opaque strings, and groups come in insertion order, which is the order JavaScript gives for non-integer keys.
- Alerts, console logging, the confirmation dialog's text, the storage of the Google user, and every rendering detail. The confirmation's answer is an input.
- The Leaflet map, its markers and icons, and the browser's geolocation. The device position is an input to `CenterMap.Locate`.
- CenterMap.View: the model computes the `center`/`zoom` props, not what the map displays. react-leaflet's `MapContainer` reads those props only when it mounts and ignores later changes, and the geolocation answer always arrives after the mount. The displayed map therefore stays on the default center at zoom 6; no member claims that the map re-centres.
- The role drop-down's choice of role is not checked by the page. `Users.UpdateRole` takes the server's record as given.
- The dashboard, home, about, login and navigation-bar pages, and the shared presentation components. They hold no logic beyond rendering and, for login, a fixed credential check.
- Concatenating the appointment groups gives back the filtered list only when each date's appointments are adjacent (`Appointments.ContiguousGroupsFlatten`). In general the groups are a permutation of it (`Appointments.GroupByDateCorrect`), and `Appointments.InterleavedDatesReordered` exhibits the reordering. This is the behaviour of the code as written, which renders appointments group by group.
- The browser's constraint validation. Neither form sets `noValidate`, so the browser blocks the submit event while a `required` field is empty, while the e-mail field fails its `type="email"` check, or while the terms checkbox is unticked (src/pages/Register.tsx:174-260). On the event form it does the same for `required`, `type="number" min="1"` and `type="url"` (src/pages/admin/AddEvent.tsx:164-327). The model starts at `handleSubmit`. `Register.Submit`, `Register.SubmitNavigatesOnlyWhenValid` and `AddEvent.Submit` describe that handler once it runs. They do not claim that every form their rules reject can reach it, and the terms checkbox is not modelled.
- Appointments.GroupByDate: dates that are `Object.prototype` property names are not modelled. The reduce starts from `{}`, so a date such as `constructor`, `toString` or `__proto__` finds an inherited value and the page throws instead of grouping. The model's accumulator is a plain empty map, so such dates are grouped like any other.

=== FILE: add_event.dfy ===
/**
 The event-creation form of the admin console: field edits, the blood-type
 checkboxes, validation into a field-to-message map, and the reset after a
 successful submit. The submit's server call is simulated in the page and
 is an input here.
 */
module AddEvent {
  import opened Text
  import opened Lists

  /** The keys of the form and of its error map. */
  datatype EventField =
    | Title | Date | StartTime | EndTime | Location | Address
    | Capacity | Description | StaffNeeded | BloodTypesNeeded | ImageUrl

  /** The fields edited through the shared change handler: all but the
      blood-type list, which has checkboxes of its own. */
  type TextField = f: EventField | f != BloodTypesNeeded witness Title

  datatype EventForm = EventForm(
    title: string,
    date: string,
    startTime: string,
    endTime: string,
    location: string,
    address: string,
    capacity: string,
    description: string,
    staffNeeded: string,
    bloodTypesNeeded: seq<string>,
    imageUrl: string)

  const EmptyForm: EventForm := EventForm("", "", "", "", "", "", "", "", "", [], "")

  /** The blood groups offered as checkboxes. */
  const BloodTypes: seq<string> := ["A+", "A-", "B+", "B-", "AB+", "AB-", "O+", "O-"]

  /** The page's state slots. */
  datatype EventPage = EventPage(form: EventForm, errors: map<EventField, string>, isSubmitting: bool)

  const InitialPage: EventPage := EventPage(EmptyForm, map[], false)

  function Get(form: EventForm, f: TextField): string {
    match f
    case Title => form.title
    case Date => form.date
    case StartTime => form.startTime
    case EndTime => form.endTime
    case Location => form.location
    case Address => form.address
    case Capacity => form.capacity
    case Description => form.description
    case StaffNeeded => form.staffNeeded
    case ImageUrl => form.imageUrl
  }

  /** `{...formData, [name]: value}`: the named field takes the value and
      every other field, the blood-type list included, keeps its own. */
  function Set(form: EventForm, f: TextField, v: string): (r: EventForm)
    ensures Get(r, f) == v
    ensures forall g: TextField :: g != f ==> Get(r, g) == Get(form, g)
    ensures r.bloodTypesNeeded == form.bloodTypesNeeded
  {
    match f
    case Title => form.(title := v)
    case Date => form.(date := v)
    case StartTime => form.(startTime := v)
    case EndTime => form.(endTime := v)
    case Location => form.(location := v)
    case Address => form.(address := v)
    case Capacity => form.(capacity := v)
    case Description => form.(description := v)
    case StaffNeeded => form.(staffNeeded := v)
    case ImageUrl => form.(imageUrl := v)
  }

  /** `handleChange`: the named field takes the new value, and its error,
      if it had a non-empty one, is blanked; no other field or error
      changes. The key stays in the map with an empty message. */
  function HandleChange(p: EventPage, f: TextField, v: string): (r: EventPage)
    ensures Get(r.form, f) == v
    ensures forall g: TextField :: g != f ==> Get(r.form, g) == Get(p.form, g)
    ensures r.form.bloodTypesNeeded == p.form.bloodTypesNeeded
    ensures f !in r.errors || r.errors[f] == ""
    ensures r.errors.Keys == p.errors.Keys
    ensures forall g :: g in p.errors && g != f ==> r.errors[g] == p.errors[g]
    ensures r.isSubmitting == p.isSubmitting
  {
    var form := Set(p.form, f, v);
    if f in p.errors && p.errors[f] != "" then EventPage(form, p.errors[f := ""], p.isSubmitting)
    else p.(form := form)
  }

  function Other(t: string): string -> bool {
    x => x != t
  }

  /** `handleBloodTypeChange`: flips whether `t` is listed. A listed type
      is removed (every copy of it); an unlisted one is appended at the
      end. The other entries keep their order and number. */
  function ToggleBloodType(xs: seq<string>, t: string): (r: seq<string>)
    ensures t in r <==> t !in xs
    ensures forall u :: u != t ==> (u in r <==> u in xs)
    ensures Filter(r, Other(t)) == Filter(xs, Other(t))
    ensures t !in xs ==> r[..|r| - 1] == xs && r[|r| - 1] == t
  {
    if t in xs then
      var r := Filter(xs, Other(t));
      FilterMembers(xs, Other(t));
      FilterKeepsAll(r, Other(t));
      r
    else
      var r := xs + [t];
      FilterAppend(xs, [t], Other(t));
      assert Filter([t], Other(t)) == [];
      r
  }

  /** Ticking an unticked type and unticking it again restores the list. */
  lemma ToggleTwiceRestores(xs: seq<string>, t: string)
    requires t !in xs
    ensures ToggleBloodType(ToggleBloodType(xs, t), t) == xs
  {
    var once := ToggleBloodType(xs, t);
    assert once == xs + [t];
    FilterAppend(xs, [t], Other(t));
    assert Filter([t], Other(t)) == [];
    FilterKeepsAll(xs, Other(t));
  }

  /** Toggling never lists a type twice, so a list built from the empty
      list by toggling is a set; toggling twice always gives back the same
      set of types. */
  lemma ToggleKeepsSet(xs: seq<string>, t: string)
    ensures NoDuplicates(xs) ==> NoDuplicates(ToggleBloodType(xs, t))
    ensures forall u :: u in ToggleBloodType(ToggleBloodType(xs, t), t) <==> u in xs
  {
    var r := ToggleBloodType(xs, t);
    if NoDuplicates(xs) {
      if t in xs {
        SubseqNoDuplicates(r, xs);
      } else {
        assert r == xs + [t];
      }
    }
  }

  /** The checkboxes clicked one after another, starting from `xs`. */
  function ToggleAll(xs: seq<string>, ts: seq<string>): seq<string>
    decreases |ts|
  {
    if ts == [] then xs else ToggleAll(ToggleBloodType(xs, ts[0]), ts[1..])
  }

  /** Clicking only the offered checkboxes keeps the ticked list a list of
      offered groups without repeats, so it never holds more than the
      eight groups. */
  lemma {:induction false} TogglesStayOffered(xs: seq<string>, ts: seq<string>)
    requires NoDuplicates(xs) && forall x :: x in xs ==> x in BloodTypes
    requires forall t :: t in ts ==> t in BloodTypes
    ensures NoDuplicates(ToggleAll(xs, ts))
    ensures forall x :: x in ToggleAll(xs, ts) ==> x in BloodTypes
    ensures |ToggleAll(xs, ts)| <= |BloodTypes|
    decreases |ts|
  {
    if ts == [] {
      NoDuplicatesWithin(xs, BloodTypes);
    } else {
      ToggleKeepsSet(xs, ts[0]);
      TogglesStayOffered(ToggleBloodType(xs, ts[0]), ts[1..]);
    }
  }

  // ---------------------------------------------------------------------
  // Validation
  // ---------------------------------------------------------------------

  /** The value `Number(s)` takes: the coercion itself is not modelled and
      is an input to validation. */
  datatype JsNumber = NaN | Finite(value: real) | PlusInfinity | MinusInfinity

  /** Passes `!isNaN(n) && !(n <= 0)`. */
  predicate IsPositive(n: JsNumber)
    ensures IsPositive(n) ==> !n.NaN? && !n.MinusInfinity?
    ensures n.Finite? ==> (IsPositive(n) <==> n.value > 0.0)
  {
    (n.Finite? && n.value > 0.0) || n.PlusInfinity?
  }

  const TitleRequired: string := "Event title is required"
  const DateRequired: string := "Event date is required"
  const StartTimeRequired: string := "Start time is required"
  const EndTimeRequired: string := "End time is required"
  const LocationRequired: string := "Location name is required"
  const AddressRequired: string := "Address is required"
  const CapacityRequired: string := "Donor capacity is required"
  const CapacityPositive: string := "Capacity must be a positive number"
  const StaffRequired: string := "Number of staff needed is required"
  const StaffPositive: string := "Staff needed must be a positive number"
  const BloodTypesRequired: string := "Select at least one blood type"

  /** The rule for capacity and staff: empty gives the "required" message,
      otherwise a value that is not a positive number gives the "positive"
      message, and a positive one gives none. */
  function NumberError(s: string, toNumber: string -> JsNumber, required: string, positive: string): (e: string)
    ensures s == "" ==> e == required
    ensures s != "" ==> e == if IsPositive(toNumber(s)) then "" else positive
  {
    if s == "" then required
    else if !IsPositive(toNumber(s)) then positive
    else ""
  }

  const AllFields: set<EventField> :=
    {Title, Date, StartTime, EndTime, Location, Address, Capacity, Description, StaffNeeded, BloodTypesNeeded, ImageUrl}

  /** The message one rule of `validate` records for field `f`, or `""`
      when that rule records none. */
  function FieldError(form: EventForm, toNumber: string -> JsNumber, f: EventField): string {
    match f
    case Title => if Trim(form.title) == "" then TitleRequired else ""
    case Date => if form.date == "" then DateRequired else ""
    case StartTime => if form.startTime == "" then StartTimeRequired else ""
    case EndTime => if form.endTime == "" then EndTimeRequired else ""
    case Location => if Trim(form.location) == "" then LocationRequired else ""
    case Address => if Trim(form.address) == "" then AddressRequired else ""
    case Capacity => NumberError(form.capacity, toNumber, CapacityRequired, CapacityPositive)
    case StaffNeeded => NumberError(form.staffNeeded, toNumber, StaffRequired, StaffPositive)
    case BloodTypesNeeded => if |form.bloodTypesNeeded| == 0 then BloodTypesRequired else ""
    case Description => ""
    case ImageUrl => ""
  }

  /** When the rule for `f` fails, stated without `trim`: title, location
      and address fail when blank; date and the two times when empty;
      capacity and staff when empty or not a positive number; the blood
      types when none is ticked. Description and image URL never fail. */
  predicate FieldFails(form: EventForm, toNumber: string -> JsNumber, f: EventField) {
    match f
    case Title => IsBlank(form.title)
    case Date => form.date == ""
    case StartTime => form.startTime == ""
    case EndTime => form.endTime == ""
    case Location => IsBlank(form.location)
    case Address => IsBlank(form.address)
    case Capacity => form.capacity == "" || !IsPositive(toNumber(form.capacity))
    case StaffNeeded => form.staffNeeded == "" || !IsPositive(toNumber(form.staffNeeded))
    case BloodTypesNeeded => form.bloodTypesNeeded == []
    case Description => false
    case ImageUrl => false
  }

  /** A rule records a message exactly when it fails. */
  lemma FieldErrorMeaning(form: EventForm, toNumber: string -> JsNumber, f: EventField)
    ensures FieldError(form, toNumber, f) != "" <==> FieldFails(form, toNumber, f)
  {
    match f
    case Title => assert Trim(form.title) == "" <==> IsBlank(form.title);
    case Location => assert Trim(form.location) == "" <==> IsBlank(form.location);
    case Address => assert Trim(form.address) == "" <==> IsBlank(form.address);
    case _ =>
  }

  /** `validate`: the error map holds exactly the fields whose rule fails,
      each with that rule's (non-empty) message. */
  function Validate(form: EventForm, toNumber: string -> JsNumber): (errors: map<EventField, string>)
    ensures forall f :: f in errors <==> FieldFails(form, toNumber, f)
    ensures forall f :: f in errors ==> errors[f] == FieldError(form, toNumber, f) && errors[f] != ""
  {
    var errors := map f | f in AllFields && FieldError(form, toNumber, f) != "" :: FieldError(form, toNumber, f);
    assert forall f :: f in errors <==> FieldFails(form, toNumber, f) by {
      forall f ensures f in errors <==> FieldFails(form, toNumber, f) {
        FieldErrorMeaning(form, toNumber, f);
      }
    }
    errors
  }

  /** Capacity and staff carry the "required" message when empty and the
      "positive number" message otherwise, never both. */
  lemma NumberMessages(form: EventForm, toNumber: string -> JsNumber)
    ensures Capacity in Validate(form, toNumber) ==>
      Validate(form, toNumber)[Capacity] == if form.capacity == "" then CapacityRequired else CapacityPositive
    ensures StaffNeeded in Validate(form, toNumber) ==>
      Validate(form, toNumber)[StaffNeeded] == if form.staffNeeded == "" then StaffRequired else StaffPositive
  {
  }

  /** Every rule of the form holds, spelled out field by field. */
  predicate RulesHold(form: EventForm, toNumber: string -> JsNumber) {
    && !IsBlank(form.title) && form.date != "" && form.startTime != "" && form.endTime != ""
    && !IsBlank(form.location) && !IsBlank(form.address)
    && form.capacity != "" && IsPositive(toNumber(form.capacity))
    && form.staffNeeded != "" && IsPositive(toNumber(form.staffNeeded))
    && form.bloodTypesNeeded != []
  }

  lemma NoFieldFails(form: EventForm, toNumber: string -> JsNumber)
    ensures RulesHold(form, toNumber) <==> forall f :: !FieldFails(form, toNumber, f)
  {
    if !RulesHold(form, toNumber) {
      if IsBlank(form.title) { assert FieldFails(form, toNumber, Title); }
      else if form.date == "" { assert FieldFails(form, toNumber, Date); }
      else if form.startTime == "" { assert FieldFails(form, toNumber, StartTime); }
      else if form.endTime == "" { assert FieldFails(form, toNumber, EndTime); }
      else if IsBlank(form.location) { assert FieldFails(form, toNumber, Location); }
      else if IsBlank(form.address) { assert FieldFails(form, toNumber, Address); }
      else if form.capacity == "" || !IsPositive(toNumber(form.capacity)) { assert FieldFails(form, toNumber, Capacity); }
      else if form.staffNeeded == "" || !IsPositive(toNumber(form.staffNeeded)) { assert FieldFails(form, toNumber, StaffNeeded); }
      else { assert FieldFails(form, toNumber, BloodTypesNeeded); }
    }
  }

  /** The form is accepted exactly when every rule holds. */
  lemma ValidateAccepts(form: EventForm, toNumber: string -> JsNumber)
    ensures Validate(form, toNumber) == map[] <==> RulesHold(form, toNumber)
  {
    var e := Validate(form, toNumber);
    NoFieldFails(form, toNumber);
    if e != map[] {
      var f :| f in e;
      assert FieldFails(form, toNumber, f);
    } else {
      forall f ensures !FieldFails(form, toNumber, f) {
        assert f !in e;
      }
    }
  }

  /** A form with nothing filled in fails every rule but those of the two
      optional fields. */
  lemma UnfilledFails(form: EventForm, toNumber: string -> JsNumber, f: EventField)
    requires form.title == form.date == form.startTime == form.endTime == ""
    requires form.location == form.address == form.capacity == form.staffNeeded == ""
    requires form.bloodTypesNeeded == []
    ensures FieldFails(form, toNumber, f) <==> f != Description && f != ImageUrl
  {
  }

  /** A form with nothing filled in has every required field flagged and
      nothing else; the empty form the page starts from is one. */
  lemma EmptyFormRejected(form: EventForm, toNumber: string -> JsNumber)
    requires form.title == form.date == form.startTime == form.endTime == ""
    requires form.location == form.address == form.capacity == form.staffNeeded == ""
    requires form.bloodTypesNeeded == []
    ensures forall f :: f in Validate(form, toNumber) <==> f != Description && f != ImageUrl
  {
    forall f ensures f in Validate(form, toNumber) <==> f != Description && f != ImageUrl {
      UnfilledFails(form, toNumber, f);
    }
  }

  /** `handleSubmit`: the error map is replaced by the validation result;
      an invalid form stays as it is; a valid one is sent and, when the
      call completes, reset to the empty form. Submitting is off at the
      end. */
  function Submit(p: EventPage, toNumber: string -> JsNumber, succeeded: bool): (r: EventPage)
    ensures r.errors == Validate(p.form, toNumber)
    ensures !r.isSubmitting || (r.errors != map[] && r.isSubmitting == p.isSubmitting)
    ensures r.errors == map[] && succeeded ==> r.form == EmptyForm
    ensures r.errors != map[] || !succeeded ==> r.form == p.form
  {
    var errors := Validate(p.form, toNumber);
    if errors != map[] then p.(errors := errors)
    else if succeeded then EventPage(EmptyForm, errors, false)
    else EventPage(p.form, errors, false)
  }
}

=== FILE: appointments.dfy ===
/**
 The appointment calendar of the admin console: the list is narrowed by a
 search over donor and location and by a status selector, grouped by date
 for display, and each row shows a status badge and a capitalised label.
 */
module Appointments {
  import opened Text
  import opened Lists
  import opened Search

  datatype Appointment = Appointment(
    id: int,
    donor: string,
    bloodType: string,
    date: string,
    time: string,
    location: string,
    status: string,
    notes: string)

  /** The status selector value that imposes no restriction. */
  const AllStatuses: string := "all"

  /** The search looks at the donor's name and the location only. */
  predicate MatchesSearch(a: Appointment, query: string) {
    FieldMatches(a.donor, query) || FieldMatches(a.location, query)
  }

  predicate MatchesStatus(a: Appointment, status: string) {
    status == AllStatuses || a.status == status
  }

  predicate Matches(a: Appointment, query: string, status: string) {
    MatchesSearch(a, query) && MatchesStatus(a, status)
  }

  /** `filteredAppointments`: an order-preserving subsequence holding
      exactly the appointments that pass both the search and the status
      test, each as often as it is listed. */
  function FilterAppointments(xs: seq<Appointment>, query: string, status: string): (r: seq<Appointment>)
    ensures IsSubseq(r, xs)
    ensures forall a :: a in r ==> MatchesSearch(a, query) && MatchesStatus(a, status)
    ensures forall i :: 0 <= i < |xs| && MatchesSearch(xs[i], query) && MatchesStatus(xs[i], status) ==> xs[i] in r
    ensures forall a :: multiset(r)[a] == if Matches(a, query, status) then multiset(xs)[a] else 0
  {
    var keep := (a: Appointment) => Matches(a, query, status);
    FilterMembers(xs, keep);
    FilterCounts(xs, keep);
    Filter(xs, keep)
  }

  /** With the status selector on "all", only the search decides. */
  lemma AllStatusesSearchOnly(xs: seq<Appointment>, query: string)
    ensures FilterAppointments(xs, query, AllStatuses) == Filter(xs, a => MatchesSearch(a, query))
  {
    FilterSameTest(xs, a => Matches(a, query, AllStatuses), a => MatchesSearch(a, query));
  }

  /** An empty search with the "all" status shows every appointment. */
  lemma EmptyFilterShowsAll(xs: seq<Appointment>)
    ensures FilterAppointments(xs, "", AllStatuses) == xs
  {
    forall a | a in xs ensures Matches(a, "", AllStatuses) {
      EmptyQueryMatches(a.donor);
    }
    FilterKeepsAll(xs, a => Matches(a, "", AllStatuses));
  }

  // ---------------------------------------------------------------------
  // Grouping by date (the `reduce` into a date-keyed object)
  // ---------------------------------------------------------------------

  /** One entry of the date-keyed object: a date and its appointments. */
  datatype DayGroup = DayGroup(date: string, items: seq<Appointment>)

  /** The dates of the groups, in order. */
  function Dates(gs: seq<DayGroup>): (ds: seq<string>)
    ensures |ds| == |gs|
    ensures forall i :: 0 <= i < |gs| ==> ds[i] == gs[i].date
  {
    if gs == [] then [] else [gs[0].date] + Dates(gs[1..])
  }

  /** The appointments of all groups, group after group. */
  function Flatten(gs: seq<DayGroup>): seq<Appointment> {
    if gs == [] then [] else gs[0].items + Flatten(gs[1..])
  }

  function OnDate(d: string): Appointment -> bool {
    (a: Appointment) => a.date == d
  }

  /** The distinct dates of `xs` in the order they first appear. */
  function FirstDates(xs: seq<Appointment>): (ds: seq<string>)
    ensures NoDuplicates(ds)
    ensures forall i :: 0 <= i < |xs| ==> xs[i].date in ds
    ensures forall d :: d in ds ==> exists i :: 0 <= i < |xs| && xs[i].date == d
    ensures |ds| == 0 <==> |xs| == 0
    decreases |xs|
  {
    if xs == [] then []
    else
      var ys := xs[..|xs| - 1];
      var a := xs[|xs| - 1];
      var ds := FirstDates(ys);
      assert forall i :: 0 <= i < |ys| ==> xs[i] == ys[i];
      if a.date in ds then ds else ds + [a.date]
  }

  /** The position of the first group for date `d`, or `|gs|` if there is
      none: the object lookup `groups[d]`. */
  function GroupIndex(gs: seq<DayGroup>, d: string): (k: nat)
    ensures k <= |gs|
    ensures k < |gs| ==> gs[k].date == d
    ensures forall j :: 0 <= j < k ==> gs[j].date != d
    decreases |gs|
  {
    if gs == [] then 0
    else if gs[0].date == d then 0
    else 1 + GroupIndex(gs[1..], d)
  }

  /** One step of the reduce: push `a` onto the group of its date, or start
      a new group for it at the end. No other group changes. */
  function AddToGroups(gs: seq<DayGroup>, a: Appointment): (r: seq<DayGroup>)
    ensures GroupIndex(gs, a.date) < |gs| ==>
      r == gs[GroupIndex(gs, a.date) := gs[GroupIndex(gs, a.date)].(items := gs[GroupIndex(gs, a.date)].items + [a])]
    ensures GroupIndex(gs, a.date) == |gs| ==> r == gs + [DayGroup(a.date, [a])]
    decreases |gs|
  {
    if gs == [] then
      [DayGroup(a.date, [a])]
    else if gs[0].date == a.date then
      var g := gs[0].(items := gs[0].items + [a]);
      var r := [g] + gs[1..];
      assert r[0] == g && r[1..] == gs[1..];
      r
    else
      var rest := AddToGroups(gs[1..], a);
      var r := [gs[0]] + rest;
      assert r[0] == gs[0] && r[1..] == rest;
      r
  }

  /** Adding an appointment puts exactly one more copy of it into the
      groups. */
  lemma {:induction false} AddToGroupsCounts(gs: seq<DayGroup>, a: Appointment)
    ensures multiset(Flatten(AddToGroups(gs, a))) == multiset(Flatten(gs)) + multiset{a}
    decreases |gs|
  {
    var r := AddToGroups(gs, a);
    if gs == [] {
      assert Flatten(r) == [a] + Flatten([]);
    } else if gs[0].date == a.date {
      assert Flatten(r) == (gs[0].items + [a]) + Flatten(gs[1..]);
      assert Flatten(gs) == gs[0].items + Flatten(gs[1..]);
    } else {
      AddToGroupsCounts(gs[1..], a);
      assert r[0] == gs[0] && r[1..] == AddToGroups(gs[1..], a);
      assert Flatten(r) == gs[0].items + Flatten(AddToGroups(gs[1..], a));
      assert Flatten(gs) == gs[0].items + Flatten(gs[1..]);
    }
  }

  /** `groupedAppointments`: a left fold of `AddToGroups` over the list.
      There are never more groups than appointments, and no group is
      empty, so every date heading has a row under it. */
  function GroupByDate(xs: seq<Appointment>): (r: seq<DayGroup>)
    ensures |r| <= |xs|
    ensures forall i :: 0 <= i < |r| ==> r[i].items != []
    decreases |xs|
  {
    if xs == [] then [] else AddToGroups(GroupByDate(xs[..|xs| - 1]), xs[|xs| - 1])
  }

  /** The lookup finds a group exactly when the date has one. */
  lemma GroupIndexFinds(gs: seq<DayGroup>, d: string)
    ensures GroupIndex(gs, d) < |gs| <==> d in Dates(gs)
  {
    var k := GroupIndex(gs, d);
    if k < |gs| {
      assert Dates(gs)[k] == d;
    }
  }

  /** Adding an appointment leaves the list of dates alone when its date
      already has a group, and appends its date otherwise. */
  lemma DatesAfterAdd(gs: seq<DayGroup>, a: Appointment)
    ensures Dates(AddToGroups(gs, a)) == if a.date in Dates(gs) then Dates(gs) else Dates(gs) + [a.date]
  {
    GroupIndexFinds(gs, a.date);
  }

  /** The per-group step of `GroupByDateCorrect`: if every group of `g`
      holds exactly the appointments of `ys` on its date, the same holds of
      every group after `a` is added, relative to `ys + [a]`. */
  lemma AddKeepsGroupsExact(ys: seq<Appointment>, g: seq<DayGroup>, a: Appointment, i: int)
    requires Dates(g) == FirstDates(ys)
    requires forall j :: 0 <= j < |g| ==> g[j].items == Filter(ys, OnDate(g[j].date))
    requires 0 <= i < |AddToGroups(g, a)|
    ensures AddToGroups(g, a)[i].items == Filter(ys + [a], OnDate(AddToGroups(g, a)[i].date))
  {
    var r := AddToGroups(g, a);
    var k := GroupIndex(g, a.date);
    var d := r[i].date;
    FilterAppend(ys, [a], OnDate(d));
    assert Filter([a], OnDate(d)) == if a.date == d then [a] else [];
    if i < |g| {
      assert r[i].date == g[i].date;
      if i != k {
        assert Dates(g)[i] == g[i].date;
        if k < |g| {
          assert Dates(g)[k] == a.date;
        }
      }
    } else {
      GroupIndexFinds(g, a.date);
      assert d == a.date && d !in FirstDates(ys);
      FilterDropsAll(ys, OnDate(d));
    }
  }

  /** The groups come one per distinct date, in order of first appearance. */
  lemma {:induction false} GroupDates(xs: seq<Appointment>)
    ensures Dates(GroupByDate(xs)) == FirstDates(xs)
    decreases |xs|
  {
    if xs != [] {
      var ys := xs[..|xs| - 1];
      GroupDates(ys);
      DatesAfterAdd(GroupByDate(ys), xs[|xs| - 1]);
    }
  }

  /** The grouping is a stable partition by date: one group per distinct
      date, in order of first appearance; each group holds exactly the
      appointments of that date, in their original order; and together the
      groups hold the input, each appointment as often as it occurs. */
  lemma {:induction false} GroupByDateCorrect(xs: seq<Appointment>)
    ensures Dates(GroupByDate(xs)) == FirstDates(xs)
    ensures forall i :: 0 <= i < |GroupByDate(xs)| ==>
      GroupByDate(xs)[i].items == Filter(xs, OnDate(GroupByDate(xs)[i].date))
    ensures multiset(Flatten(GroupByDate(xs))) == multiset(xs)
    decreases |xs|
  {
    if xs != [] {
      var ys := xs[..|xs| - 1];
      var a := xs[|xs| - 1];
      assert xs == ys + [a];
      GroupByDateCorrect(ys);
      var g := GroupByDate(ys);
      assert GroupByDate(xs) == AddToGroups(g, a);
      DatesAfterAdd(g, a);
      AddToGroupsCounts(g, a);
      forall i | 0 <= i < |AddToGroups(g, a)|
        ensures AddToGroups(g, a)[i].items == Filter(xs, OnDate(AddToGroups(g, a)[i].date))
      {
        AddKeepsGroupsExact(ys, g, a, i);
      }
    }
  }

  /** No groups exactly when the filtered list is empty: the case that
      renders "No appointments found". */
  lemma NoGroupsIffEmpty(xs: seq<Appointment>)
    ensures |GroupByDate(xs)| == 0 <==> xs == []
  {
    GroupByDateCorrect(xs);
    assert |Dates(GroupByDate(xs))| == |GroupByDate(xs)|;
  }

  lemma FlattenAppend(gs: seq<DayGroup>, g: DayGroup)
    ensures Flatten(gs + [g]) == Flatten(gs) + g.items
    decreases |gs|
  {
    if gs == [] {
      assert Flatten([g]) == g.items;
    } else {
      assert (gs + [g])[1..] == gs[1..] + [g];
      FlattenAppend(gs[1..], g);
    }
  }

  /** With distinct dates, the lookup of the last group's date finds the
      last group. */
  lemma LastGroupIndex(g: seq<DayGroup>, d: string)
    requires g != [] && NoDuplicates(Dates(g)) && g[|g| - 1].date == d
    ensures GroupIndex(g, d) == |g| - 1
  {
    var n := |g| - 1;
    assert Dates(g)[n] == d;
    GroupIndexFinds(g, d);
    var m := GroupIndex(g, d);
    assert Dates(g)[m] == d;
  }

  /** Groups with the same dates position by position have the same
      `Dates`. */
  lemma SameDates(g: seq<DayGroup>, h: seq<DayGroup>)
    requires |g| == |h| && forall i :: 0 <= i < |g| ==> g[i].date == h[i].date
    ensures Dates(g) == Dates(h)
  {
    assert forall i :: 0 <= i < |g| ==> Dates(g)[i] == Dates(h)[i];
  }

  /** Adding an appointment whose date is that of the last group appends
      it at the very end of the concatenation. */
  lemma AddToLastGroup(g: seq<DayGroup>, a: Appointment)
    requires g != [] && NoDuplicates(Dates(g)) && g[|g| - 1].date == a.date
    ensures Flatten(AddToGroups(g, a)) == Flatten(g) + [a]
    ensures Dates(AddToGroups(g, a)) == Dates(g)
  {
    var n := |g| - 1;
    LastGroupIndex(g, a.date);
    var g' := g[n].(items := g[n].items + [a]);
    var r := AddToGroups(g, a);
    assert r == g[..n] + [g'];
    assert g == g[..n] + [g[n]];
    FlattenAppend(g[..n], g[n]);
    FlattenAppend(g[..n], g');
    SameDates(r, g);
  }

  /** Adding an appointment with a date no group has appends it at the very
      end of the concatenation, in a group of its own. */
  lemma AddNewGroup(g: seq<DayGroup>, a: Appointment)
    requires a.date !in Dates(g)
    ensures Flatten(AddToGroups(g, a)) == Flatten(g) + [a]
    ensures Dates(AddToGroups(g, a)) == Dates(g) + [a.date]
  {
    GroupIndexFinds(g, a.date);
    FlattenAppend(g, DayGroup(a.date, [a]));
  }

  /** An appointment `a` appended after `ys` shares its date with the last
      of `ys` whenever any of `ys` has that date. */
  predicate JoinsLast(ys: seq<Appointment>, a: Appointment) {
    forall k :: 0 <= k < |ys| && ys[k].date == a.date ==> ys[|ys| - 1].date == a.date
  }

  /** All appointments that share a date sit next to each other: each one
      whose date occurred earlier directly follows an appointment of that
      date. */
  predicate DatesContiguous(xs: seq<Appointment>)
    decreases |xs|
  {
    xs == [] || (DatesContiguous(xs[..|xs| - 1]) && JoinsLast(xs[..|xs| - 1], xs[|xs| - 1]))
  }

  /** The fold's last step, for a list written as `ys + [a]`. */
  lemma GroupByDateSnoc(ys: seq<Appointment>, a: Appointment)
    ensures GroupByDate(ys + [a]) == AddToGroups(GroupByDate(ys), a)
  {
    var xs := ys + [a];
    assert xs[..|xs| - 1] == ys && xs[|xs| - 1] == a;
  }

  /** The last group gets `a`: the concatenation grows by `a` and the last
      date stays `a`'s. */
  lemma JoinLastCase(g: seq<DayGroup>, ys: seq<Appointment>, a: Appointment)
    requires Flatten(g) == ys
    requires g != [] && NoDuplicates(Dates(g)) && Dates(g)[|g| - 1] == a.date
    ensures Flatten(AddToGroups(g, a)) == ys + [a]
    ensures |AddToGroups(g, a)| > 0 && Dates(AddToGroups(g, a))[|AddToGroups(g, a)| - 1] == a.date
  {
    AddToLastGroup(g, a);
  }

  /** A new group is opened for `a` at the end. */
  lemma NewDateCase(g: seq<DayGroup>, ys: seq<Appointment>, a: Appointment)
    requires Flatten(g) == ys
    requires a.date !in Dates(g)
    ensures Flatten(AddToGroups(g, a)) == ys + [a]
    ensures |AddToGroups(g, a)| > 0 && Dates(AddToGroups(g, a))[|AddToGroups(g, a)| - 1] == a.date
  {
    AddNewGroup(g, a);
  }

  /** Adding an appointment that joins the last date to groups that
      concatenate back to `ys` gives groups that concatenate back to
      `ys + [a]`, the last of them holding `a`'s date. */
  lemma AddJoining(ys: seq<Appointment>, a: Appointment)
    requires JoinsLast(ys, a)
    requires Flatten(GroupByDate(ys)) == ys
    requires ys != [] ==> |GroupByDate(ys)| > 0 && Dates(GroupByDate(ys))[|GroupByDate(ys)| - 1] == ys[|ys| - 1].date
    ensures Flatten(AddToGroups(GroupByDate(ys), a)) == ys + [a]
    ensures |AddToGroups(GroupByDate(ys), a)| > 0
    ensures Dates(AddToGroups(GroupByDate(ys), a))[|AddToGroups(GroupByDate(ys), a)| - 1] == a.date
  {
    var g := GroupByDate(ys);
    GroupDates(ys);
    if a.date in Dates(g) {
      assert a.date in FirstDates(ys);
      var k :| 0 <= k < |ys| && ys[k].date == a.date;
      assert ys[|ys| - 1].date == a.date;
      assert NoDuplicates(Dates(g));
      JoinLastCase(g, ys, a);
    } else {
      NewDateCase(g, ys, a);
    }
  }

  /** One step of `ContiguousGroupsFlatten`. */
  lemma ContiguousStep(ys: seq<Appointment>, a: Appointment)
    requires JoinsLast(ys, a)
    requires Flatten(GroupByDate(ys)) == ys
    requires ys != [] ==> |GroupByDate(ys)| > 0 && Dates(GroupByDate(ys))[|GroupByDate(ys)| - 1] == ys[|ys| - 1].date
    ensures Flatten(GroupByDate(ys + [a])) == ys + [a]
    ensures |GroupByDate(ys + [a])| > 0 && Dates(GroupByDate(ys + [a]))[|GroupByDate(ys + [a])| - 1] == a.date
  {
    GroupByDateSnoc(ys, a);
    AddJoining(ys, a);
  }

  /** When the appointments of each date are already contiguous (as in the
      calendar's data, sorted by date), concatenating the groups gives back
      the filtered list unchanged. */
  lemma {:induction false} ContiguousGroupsFlatten(xs: seq<Appointment>)
    requires DatesContiguous(xs)
    ensures Flatten(GroupByDate(xs)) == xs
    ensures xs != [] ==> |GroupByDate(xs)| > 0 && Dates(GroupByDate(xs))[|GroupByDate(xs)| - 1] == xs[|xs| - 1].date
    decreases |xs|
  {
    if xs != [] {
      var ys := xs[..|xs| - 1];
      var a := xs[|xs| - 1];
      assert ys + [a] == xs;
      ContiguousGroupsFlatten(ys);
      ContiguousStep(ys, a);
    }
  }

  /** Two appointments on different dates make two groups, in order. */
  lemma TwoDates(a1: Appointment, a2: Appointment)
    requires a1.date != a2.date
    ensures GroupByDate([a1, a2]) == [DayGroup(a1.date, [a1]), DayGroup(a2.date, [a2])]
  {
    var g1 := [DayGroup(a1.date, [a1])];
    assert [a1] == [] + [a1];
    GroupByDateSnoc([], a1);
    assert GroupByDate([a1]) == g1;
    assert [a1, a2] == [a1] + [a2];
    GroupByDateSnoc([a1], a2);
    assert GroupIndex(g1, a2.date) == 1;
  }

  /** A third appointment dated like the first joins the first group. */
  lemma ThirdJoinsFirst(a1: Appointment, a2: Appointment, a3: Appointment)
    requires a1.date == a3.date != a2.date
    ensures GroupByDate([a1, a2, a3]) == [DayGroup(a1.date, [a1, a3]), DayGroup(a2.date, [a2])]
  {
    TwoDates(a1, a2);
    var g2 := [DayGroup(a1.date, [a1]), DayGroup(a2.date, [a2])];
    assert [a1, a2, a3] == [a1, a2] + [a3];
    GroupByDateSnoc([a1, a2], a3);
    assert GroupIndex(g2, a3.date) == 0;
    assert [a1] + [a3] == [a1, a3];
    var updated := g2[0 := g2[0].(items := g2[0].items + [a3])];
    assert updated[0] == DayGroup(a1.date, [a1, a3]) && updated[1] == g2[1];
    assert updated == [DayGroup(a1.date, [a1, a3]), DayGroup(a2.date, [a2])];
  }

  /** Without contiguity the concatenation of the groups is only a
      rearrangement: appointments dated d1, d2, d1 come back as the two of
      d1 followed by the one of d2, which differs from the input whenever
      the last two appointments differ. */
  lemma InterleavedDatesReordered(a1: Appointment, a2: Appointment, a3: Appointment)
    requires a1.date == a3.date != a2.date
    ensures Flatten(GroupByDate([a1, a2, a3])) == [a1, a3, a2]
    ensures a2 != a3 ==> Flatten(GroupByDate([a1, a2, a3])) != [a1, a2, a3]
  {
    ThirdJoinsFirst(a1, a2, a3);
    var first := DayGroup(a1.date, [a1, a3]);
    var g3 := [first, DayGroup(a2.date, [a2])];
    FlattenAppend([first], DayGroup(a2.date, [a2]));
    assert Flatten([first]) == [a1, a3] + Flatten([]);
    assert g3 == [first] + [DayGroup(a2.date, [a2])];
    if a2 != a3 {
      assert [a1, a3, a2][1] != [a1, a2, a3][1];
    }
  }

  // ---------------------------------------------------------------------
  // Status badge and label
  // ---------------------------------------------------------------------

  const ConfirmedBadge: string := "bg-success-100 text-success-800"
  const PendingBadge: string := "bg-yellow-100 text-yellow-800"
  const CompletedBadge: string := "bg-secondary-100 text-secondary-800"
  const CancelledBadge: string := "bg-error-100 text-error-800"
  const DefaultBadge: string := "bg-gray-100 text-gray-800"

  const KnownStatuses: set<string> := {"confirmed", "pending", "completed", "cancelled"}

  /** `getStatusBadgeClasses`: each known status has a class string of its
      own, and every other status falls back to the gray default. */
  function StatusBadgeClasses(status: string): (c: string)
    ensures c == DefaultBadge <==> status !in KnownStatuses
  {
    match status
    case "confirmed" => ConfirmedBadge
    case "pending" => PendingBadge
    case "completed" => CompletedBadge
    case "cancelled" => CancelledBadge
    case _ => DefaultBadge
  }

  /** No two known statuses share a badge. */
  lemma BadgesDistinct(s1: string, s2: string)
    requires s1 in KnownStatuses && s2 in KnownStatuses && s1 != s2
    ensures StatusBadgeClasses(s1) != StatusBadgeClasses(s2)
  {
  }

  /** The label shown in the status column. */
  function StatusLabel(status: string): (r: string)
    ensures |r| == |status|
    ensures status != [] ==> r[0] == UpperChar(status[0]) && r[1..] == status[1..]
  {
    Capitalize(status)
  }

  /** Statuses that do not start with a capital letter get distinct labels:
      the label keeps the length and everything after the first character,
      and the first character only changes case. */
  lemma StatusLabelInjective(s1: string, s2: string)
    requires s1 == [] || !IsUpper(s1[0])
    requires s2 == [] || !IsUpper(s2[0])
    requires StatusLabel(s1) == StatusLabel(s2)
    ensures s1 == s2
  {
    if s1 != [] {
      assert s1 == [s1[0]] + s1[1..] && s2 == [s2[0]] + s2[1..];
    }
  }

  /** The status drop-down: value and caption of each entry. */
  datatype StatusOption = StatusOption(value: string, caption: string)

  const StatusOptions: seq<StatusOption> := [
    StatusOption("all", "All Statuses"),
    StatusOption("pending", "Pending"),
    StatusOption("confirmed", "Confirmed"),
    StatusOption("completed", "Completed"),
    StatusOption("cancelled", "Cancelled")
  ]

  /** The drop-down offers "all" first and then exactly the known statuses,
      each captioned with the same label the table shows for it. */
  lemma StatusOptionsMatchLabels()
    ensures StatusOptions[0].value == AllStatuses
    ensures forall i :: 1 <= i < |StatusOptions| ==>
      StatusOptions[i].value in KnownStatuses && StatusLabel(StatusOptions[i].value) == StatusOptions[i].caption
    ensures forall s :: s in KnownStatuses ==> exists i :: 1 <= i < |StatusOptions| && StatusOptions[i].value == s
  {
    assert StatusOptions[1].value == "pending";
    assert StatusOptions[2].value == "confirmed";
    assert StatusOptions[3].value == "completed";
    assert StatusOptions[4].value == "cancelled";
  }
}

=== FILE: center_map.dfy ===
/**
 The admin map of blood centers: loading the centers and the tracked user
 positions, and editing the centers through two panels — "add a center at
 the clicked spot" and "edit the clicked center" — of which at most one is
 open at a time. Coordinates are exact reals, and every server reply is an
 input.
 */
module CenterMap {
  import opened Options
  import opened Lists
  import opened Http

  datatype BloodCenter = BloodCenter(
    id: int,
    idAdmin: int,
    nameCenter: string,
    latitude: real,
    longitude: real)

  /** A position reported by a tracked device. */
  datatype UserPosition = UserPosition(
    id: string,
    deviceId: string,
    latitude: real,
    longitude: real,
    timestamp: string)

  datatype LatLng = LatLng(lat: real, lng: real)

  /** The "Add New Center" inputs. */
  datatype CenterForm = CenterForm(nameCenter: string, idAdmin: int)

  const EmptyCenterForm: CenterForm := CenterForm("", 0)

  /** The page's state slots. `newLocation` set means the add panel is
      open; `selected` set means the edit panel is open. */
  datatype MapPage = MapPage(
    markers: seq<BloodCenter>,
    positions: seq<UserPosition>,
    currentLocation: Option<LatLng>,
    error: Option<string>,
    selected: Option<BloodCenter>,
    newLocation: Option<LatLng>,
    form: CenterForm)

  const InitialPage: MapPage := MapPage([], [], None, None, None, None, EmptyCenterForm)

  /** The two panels are never open together. */
  predicate OnePanel(p: MapPage) {
    !(p.selected.Some? && p.newLocation.Some?)
  }

  const CentersFailed: string := "Failed to load hospitals. Please try again later."
  const PositionsFailed: string := "Failed to load user positions. Please try again later."

  // ---------------------------------------------------------------------
  // Loading
  // ---------------------------------------------------------------------

  /** `fetchHospitals`. `axios` rejects a non-2xx reply, so `NotOk` fails
      like a thrown error. A reply whose body is falsy (`None`) changes
      nothing; a failure sets the banner and keeps the markers. A success
      does not clear an earlier banner. */
  function FetchCenters(p: MapPage, reply: Reply<Option<seq<BloodCenter>>>): (r: MapPage)
    ensures reply.Ok? && reply.body.Some? ==> r == p.(markers := reply.body.value)
    ensures reply.Ok? && reply.body.None? ==> r == p
    ensures !reply.Ok? ==> r == p.(error := Some(CentersFailed))
  {
    match reply
    case Ok(data) => if data.Some? then p.(markers := data.value) else p
    case _ => p.(error := Some(CentersFailed))
  }

  /** `fetchUserPositions`, the same shape over the position list. */
  function FetchPositions(p: MapPage, reply: Reply<Option<seq<UserPosition>>>): (r: MapPage)
    ensures reply.Ok? && reply.body.Some? ==> r == p.(positions := reply.body.value)
    ensures reply.Ok? && reply.body.None? ==> r == p
    ensures !reply.Ok? ==> r == p.(error := Some(PositionsFailed))
  {
    match reply
    case Ok(data) => if data.Some? then p.(positions := data.value) else p
    case _ => p.(error := Some(PositionsFailed))
  }

  /** The browser reported the device's position. */
  function Locate(p: MapPage, here: LatLng): (r: MapPage)
    ensures r.currentLocation == Some(here)
    ensures r.(currentLocation := p.currentLocation) == p
  {
    p.(currentLocation := Some(here))
  }

  const DefaultCenter: LatLng := LatLng(31.7917, -7.0926)

  /** The `center` and `zoom` props handed to `MapContainer`: the device
      at zoom 12 once it is known, otherwise the default center at zoom 6.
      The map widget reads them only when it mounts. */
  function View(p: MapPage): (v: (LatLng, nat))
    ensures p.currentLocation.Some? ==> v == (p.currentLocation.value, 12)
    ensures p.currentLocation.None? ==> v == (DefaultCenter, 6)
  {
    match p.currentLocation
    case Some(here) => (here, 12)
    case None => (DefaultCenter, 6)
  }

  /** The props start on the default center, and a geolocation report
      sets them to the device. */
  lemma ViewFollowsLocate(p: MapPage, here: LatLng)
    ensures View(InitialPage) == (DefaultCenter, 6)
    ensures View(Locate(p, here)) == (here, 12)
  {
  }

  // ---------------------------------------------------------------------
  // Clicks
  // ---------------------------------------------------------------------

  function Abs(x: real): real {
    if x < 0.0 then -x else x
  }

  /** A click this close to a center (under 0.001 degree on both axes) is
      taken as a click on its marker. */
  predicate Near(c: BloodCenter, at: LatLng) {
    Abs(c.latitude - at.lat) < 0.001 && Abs(c.longitude - at.lng) < 0.001
  }

  /** `hospitalMarkers.some(...)` over the proximity test. */
  predicate MarkerExists(markers: seq<BloodCenter>, at: LatLng) {
    exists i :: 0 <= i < |markers| && Near(markers[i], at)
  }

  /** `handleMapClick`. A click near an existing center changes nothing. A
      click elsewhere opens the add panel there with an empty form and
      closes the edit panel; the markers are kept. */
  function MapClick(p: MapPage, at: LatLng): (r: MapPage)
    ensures MarkerExists(p.markers, at) ==> r == p
    ensures !MarkerExists(p.markers, at) ==>
      && r.newLocation == Some(at) && r.selected == None && r.form == EmptyCenterForm
      && r.markers == p.markers && r.positions == p.positions && r.error == p.error
    ensures OnePanel(r) <== OnePanel(p)
  {
    if MarkerExists(p.markers, at) then p
    else p.(newLocation := Some(at), selected := None, form := EmptyCenterForm)
  }

  /** A click exactly on a center's position is never taken as a request to
      add a center there. */
  lemma ClickOnCenterIgnored(p: MapPage, i: int)
    requires 0 <= i < |p.markers|
    ensures MapClick(p, LatLng(p.markers[i].latitude, p.markers[i].longitude)) == p
  {
    assert Near(p.markers[i], LatLng(p.markers[i].latitude, p.markers[i].longitude));
  }

  /** A click on a marker: its center is selected and the add panel closes.
      Only a center on the map can be clicked. */
  function MarkerClick(p: MapPage, i: int): (r: MapPage)
    requires 0 <= i < |p.markers|
    ensures r.selected == Some(p.markers[i]) && r.newLocation == None
    ensures OnePanel(r)
    ensures r.(selected := p.selected, newLocation := p.newLocation) == p
  {
    p.(selected := Some(p.markers[i]), newLocation := None)
  }

  // ---------------------------------------------------------------------
  // Panel inputs
  // ---------------------------------------------------------------------

  /** The add panel's name input. */
  function EditFormName(p: MapPage, v: string): (r: MapPage)
    ensures r.form == CenterForm(v, p.form.idAdmin)
    ensures r.(form := p.form) == p
  {
    p.(form := p.form.(nameCenter := v))
  }

  /** The add panel's admin-id input, after `+value` coercion. */
  function EditFormAdmin(p: MapPage, n: int): (r: MapPage)
    ensures r.form == CenterForm(p.form.nameCenter, n)
    ensures r.(form := p.form) == p
  {
    p.(form := p.form.(idAdmin := n))
  }

  /** One input of the edit panel, after `parseFloat`/`parseInt`. */
  datatype CenterEdit = NameTo(name: string) | LatitudeTo(lat: real) | LongitudeTo(lng: real) | AdminTo(admin: int)

  /** The spread `{...c, field: value}`: the edited field takes the value and
      every other field, the id among them, keeps its own. */
  function ApplyEdit(c: BloodCenter, e: CenterEdit): (r: BloodCenter)
    ensures r.id == c.id
    ensures r.nameCenter == if e.NameTo? then e.name else c.nameCenter
    ensures r.latitude == if e.LatitudeTo? then e.lat else c.latitude
    ensures r.longitude == if e.LongitudeTo? then e.lng else c.longitude
    ensures r.idAdmin == if e.AdminTo? then e.admin else c.idAdmin
  {
    match e
    case NameTo(v) => c.(nameCenter := v)
    case LatitudeTo(v) => c.(latitude := v)
    case LongitudeTo(v) => c.(longitude := v)
    case AdminTo(v) => c.(idAdmin := v)
  }

  /** `setSelectedCenter({...selectedCenter, ...})`: the selection takes
      the edited value and keeps its id, so the later update still targets
      the center that was clicked. The inputs exist only while a center is
      selected; the marker list is not touched until the update. */
  function EditSelected(p: MapPage, e: CenterEdit): (r: MapPage)
    ensures p.selected.None? ==> r == p
    ensures p.selected.Some? ==> r.selected == Some(ApplyEdit(p.selected.value, e))
    ensures p.selected.Some? ==> r.selected.value.id == p.selected.value.id
    ensures r.markers == p.markers && r.newLocation == p.newLocation
    ensures r.(selected := p.selected) == p
  {
    match p.selected
    case None => p
    case Some(c) => p.(selected := Some(ApplyEdit(c, e)))
  }

  // ---------------------------------------------------------------------
  // Server edits
  // ---------------------------------------------------------------------

  /** The body `handleAddCenter` posts: the form and the clicked spot. */
  datatype NewCenter = NewCenter(nameCenter: string, idAdmin: int, latitude: real, longitude: real)

  function Payload(form: CenterForm, at: LatLng): (c: NewCenter)
    ensures c.nameCenter == form.nameCenter && c.idAdmin == form.idAdmin
    ensures c.latitude == at.lat && c.longitude == at.lng
  {
    NewCenter(form.nameCenter, form.idAdmin, at.lat, at.lng)
  }

  /** `handleAddCenter`, given the reply to the post of `Payload`. Without
      an open add panel nothing happens. On success the server's record is
      appended after the existing markers and the panel closes, and nothing
      else changes; on failure nothing changes at all. */
  function AddCenter(p: MapPage, reply: Reply<BloodCenter>): (r: MapPage)
    ensures p.newLocation.None? || !reply.Ok? ==> r == p
    ensures p.newLocation.Some? && reply.Ok? ==>
      && |r.markers| == |p.markers| + 1
      && r.markers[..|p.markers|] == p.markers
      && r.markers[|p.markers|] == reply.body
      && r.newLocation == None
      && r.selected == p.selected && r.form == p.form
    ensures p.newLocation.Some? && reply.Ok? ==> r.(markers := p.markers, newLocation := p.newLocation) == p
    ensures OnePanel(r) <== OnePanel(p)
  {
    if p.newLocation.None? then p
    else match reply
      case Ok(center) =>
        var markers := p.markers + [center];
        p.(markers := markers, newLocation := None)
      case _ => p
  }

  /** The server's record `c` stores the posted body `n` as it was sent. */
  predicate Stores(c: BloodCenter, n: NewCenter) {
    && c.nameCenter == n.nameCenter && c.idAdmin == n.idAdmin
    && c.latitude == n.latitude && c.longitude == n.longitude
  }

  /** When the server stores the body posted from the open add panel, the
      new marker carries the form's name and admin id at the clicked spot,
      and a second click on that spot no longer opens the add panel. */
  lemma AddedSpotTaken(p: MapPage, reply: Reply<BloodCenter>)
    requires p.newLocation.Some? && reply.Ok?
    requires Stores(reply.body, Payload(p.form, p.newLocation.value))
    ensures var r := AddCenter(p, reply);
      && r.markers[|r.markers| - 1].nameCenter == p.form.nameCenter
      && r.markers[|r.markers| - 1].idAdmin == p.form.idAdmin
      && MapClick(r, p.newLocation.value) == r
  {
    var r := AddCenter(p, reply);
    ClickOnCenterIgnored(r, |p.markers|);
  }

  /** `handleUpdateCenter`. Without a selection nothing happens. On success
      every center with the selection's id becomes the selection, the
      others stay as they were, and the edit panel closes; nothing else
      changes. On failure nothing changes at all. */
  function UpdateCenter(p: MapPage, reply: Reply<()>): (r: MapPage)
    ensures p.selected.None? || !reply.Ok? ==> r == p
    ensures p.selected.Some? && reply.Ok? ==>
      && |r.markers| == |p.markers|
      && (forall i :: 0 <= i < |p.markers| ==>
            r.markers[i] == if p.markers[i].id == p.selected.value.id then p.selected.value else p.markers[i])
      && r.selected == None && r.newLocation == p.newLocation
    ensures p.selected.Some? && reply.Ok? ==> r.(markers := p.markers, selected := p.selected) == p
    ensures OnePanel(r) <== OnePanel(p)
  {
    match p.selected
    case None => p
    case Some(sel) =>
      if reply.Ok? then p.(markers := ReplaceWhere(p.markers, (c: BloodCenter) => c.id == sel.id, sel), selected := None)
      else p
  }

  /** An update never changes which id sits at which position, and
      afterwards the map shows the selection's edits for that id. */
  lemma UpdateKeepsIds(p: MapPage, reply: Reply<()>)
    ensures var r := UpdateCenter(p, reply);
      && |r.markers| == |p.markers|
      && forall i :: 0 <= i < |p.markers| ==> r.markers[i].id == p.markers[i].id
    ensures p.selected.Some? && reply.Ok? ==>
      forall c :: c in UpdateCenter(p, reply).markers && c.id == p.selected.value.id ==> c == p.selected.value
  {
  }

  /** `handleDeleteCenter(id)`. On success the centers with that id are
      dropped, the others kept in their order, and the edit panel closes;
      nothing else changes. On failure nothing changes at all. */
  function DeleteCenter(p: MapPage, id: int, reply: Reply<()>): (r: MapPage)
    ensures !reply.Ok? ==> r == p
    ensures reply.Ok? ==>
      && IsSubseq(r.markers, p.markers)
      && (forall c :: c in r.markers <==> c in p.markers && c.id != id)
      && r.selected == None && r.newLocation == p.newLocation && r.form == p.form
    ensures reply.Ok? ==> r.(markers := p.markers, selected := p.selected) == p
    ensures OnePanel(r) <== OnePanel(p)
  {
    if reply.Ok? then
      var keep := (c: BloodCenter) => c.id != id;
      FilterMembers(p.markers, keep);
      p.(markers := Filter(p.markers, keep), selected := None)
    else p
  }

  /** A successful delete keeps every other center exactly as often as it
      was on the map. */
  lemma DeleteKeepsOthers(p: MapPage, id: int, reply: Reply<()>)
    requires reply.Ok?
    ensures forall c ::
              multiset(DeleteCenter(p, id, reply).markers)[c] == if c.id == id then 0 else multiset(p.markers)[c]
  {
    FilterCounts(p.markers, (c: BloodCenter) => c.id != id);
  }

  // ---------------------------------------------------------------------
  // The panel invariant over whole sessions
  // ---------------------------------------------------------------------

  /** Everything that can happen on the page, with its reply. A marker
      click names the marker by index; one outside the list cannot happen
      and leaves the page as it is. */
  datatype Step =
    | CentersLoaded(centers: Reply<Option<seq<BloodCenter>>>)
    | PositionsLoaded(positions: Reply<Option<seq<UserPosition>>>)
    | Located(here: LatLng)
    | ClickMap(at: LatLng)
    | ClickMarker(index: int)
    | TypeName(name: string)
    | TypeAdmin(admin: int)
    | EditCenter(edit: CenterEdit)
    | Add(added: Reply<BloodCenter>)
    | Update(updated: Reply<()>)
    | Delete(deleted: Reply<()>)

  /** One step. The delete button removes the selected center, so it does
      something only while a center is selected. Only a geolocation report
      moves the device position. */
  function Apply(p: MapPage, s: Step): (r: MapPage)
    ensures OnePanel(p) ==> OnePanel(r)
    ensures r.currentLocation == if s.Located? then Some(s.here) else p.currentLocation
  {
    match s
    case CentersLoaded(reply) => FetchCenters(p, reply)
    case PositionsLoaded(reply) => FetchPositions(p, reply)
    case Located(here) => Locate(p, here)
    case ClickMap(at) => MapClick(p, at)
    case ClickMarker(i) => if 0 <= i < |p.markers| then MarkerClick(p, i) else p
    case TypeName(v) => EditFormName(p, v)
    case TypeAdmin(n) => EditFormAdmin(p, n)
    case EditCenter(e) => EditSelected(p, e)
    case Add(reply) => AddCenter(p, reply)
    case Update(reply) => UpdateCenter(p, reply)
    case Delete(reply) =>
      if p.selected.Some? then DeleteCenter(p, p.selected.value.id, reply) else p
  }

  /** Every step keeps at most one panel open. */
  lemma StepKeepsOnePanel(p: MapPage, s: Step)
    requires OnePanel(p)
    ensures OnePanel(Apply(p, s))
  {
  }

  function Run(p: MapPage, steps: seq<Step>): MapPage
    decreases |steps|
  {
    if steps == [] then p else Run(Apply(p, steps[0]), steps[1..])
  }

  /** From the initial page, no sequence of events ever opens both panels. */
  lemma {:induction false} RunKeepsOnePanel(p: MapPage, steps: seq<Step>)
    requires OnePanel(p)
    ensures OnePanel(Run(p, steps))
    decreases |steps|
  {
    if steps != [] {
      StepKeepsOnePanel(p, steps[0]);
      RunKeepsOnePanel(Apply(p, steps[0]), steps[1..]);
    }
  }

  lemma NeverBothPanels(steps: seq<Step>)
    ensures OnePanel(Run(InitialPage, steps))
  {
    RunKeepsOnePanel(InitialPage, steps);
  }

  /** The position of the last geolocation report among `steps`, if any. */
  function LastLocated(steps: seq<Step>): Option<LatLng>
    decreases |steps|
  {
    if steps == [] then None
    else match LastLocated(steps[1..])
      case Some(here) => Some(here)
      case None => if steps[0].Located? then Some(steps[0].here) else None
  }

  /** Over any sequence of events the map props follow the last
      geolocation report and nothing else: clicks, edits and server replies
      never change them. */
  lemma {:induction false} RunView(p: MapPage, steps: seq<Step>)
    ensures View(Run(p, steps)) == match LastLocated(steps)
      case Some(here) => (here, 12)
      case None => View(p)
    decreases |steps|
  {
    if steps != [] {
      RunView(Apply(p, steps[0]), steps[1..]);
    }
  }

  /** From the initial page the map props stay the default center at zoom
      6 exactly until the device is first located. */
  lemma DefaultViewUntilLocated(steps: seq<Step>)
    ensures View(Run(InitialPage, steps)) == (DefaultCenter, 6) <==> LastLocated(steps).None?
  {
    RunView(InitialPage, steps);
  }
}

=== FILE: donors.dfy ===
/**
 The donor roster of the admin console: a search over name and e-mail and
 a blood-type selector narrow the list, and the footer shows how many of
 the donors are listed.
 */
module Donors {
  import opened Lists
  import opened Search

  datatype Donor = Donor(
    id: int,
    name: string,
    email: string,
    bloodType: string,
    lastDonation: string,
    location: string,
    donations: int)

  /** The blood-type selector entry that imposes no restriction. */
  const AllTypes: string := "All Types"

  /** `bloodTypes`: the "all" entry followed by the eight blood groups. */
  const BloodTypeChoices: seq<string> := [AllTypes, "O+", "O-", "A+", "A-", "B+", "B-", "AB+", "AB-"]

  /** The search looks at the name and the e-mail only. */
  predicate MatchesSearch(d: Donor, query: string) {
    FieldMatches(d.name, query) || FieldMatches(d.email, query)
  }

  predicate MatchesBloodType(d: Donor, selected: string) {
    SelectorAllows(selected, AllTypes, d.bloodType)
  }

  predicate Matches(d: Donor, query: string, selected: string) {
    MatchesSearch(d, query) && MatchesBloodType(d, selected)
  }

  /** `filteredDonors`: an order-preserving subsequence holding exactly the
      donors that pass the search and the blood-type test, each as often
      as it is listed; so the "Showing
      n of m" footer never shows n above m. */
  function FilterDonors(xs: seq<Donor>, query: string, selected: string): (r: seq<Donor>)
    ensures IsSubseq(r, xs)
    ensures |r| <= |xs|
    ensures forall d :: d in r ==> MatchesSearch(d, query) && MatchesBloodType(d, selected)
    ensures forall i :: 0 <= i < |xs| && MatchesSearch(xs[i], query) && MatchesBloodType(xs[i], selected) ==> xs[i] in r
    ensures forall d :: multiset(r)[d] == if Matches(d, query, selected) then multiset(xs)[d] else 0
  {
    var keep := (d: Donor) => Matches(d, query, selected);
    FilterMembers(xs, keep);
    FilterCounts(xs, keep);
    Filter(xs, keep)
  }

  /** A selector of `""` or "All Types" leaves only the search to decide. */
  lemma UnrestrictedBloodType(xs: seq<Donor>, query: string, selected: string)
    requires selected == "" || selected == AllTypes
    ensures FilterDonors(xs, query, selected) == Filter(xs, d => MatchesSearch(d, query))
  {
    FilterSameTest(xs, d => Matches(d, query, selected), d => MatchesSearch(d, query));
  }

  /** Any other selector keeps exactly the donors whose blood type equals
      it, letter for letter. */
  lemma ExactBloodType(xs: seq<Donor>, query: string, selected: string)
    requires selected != "" && selected != AllTypes
    ensures FilterDonors(xs, query, selected) == Filter(xs, d => MatchesSearch(d, query) && d.bloodType == selected)
  {
    FilterSameTest(xs, d => Matches(d, query, selected), d => MatchesSearch(d, query) && d.bloodType == selected);
  }

  /** Donors that differ only in their location are listed alike. */
  lemma LocationIgnored(d: Donor, location: string, query: string, selected: string)
    ensures Matches(d.(location := location), query, selected) == Matches(d, query, selected)
  {
  }

  /** The drop-down offers `""` and the eight blood groups, never the
      "All Types" entry itself. */
  lemma BloodTypeOptions()
    ensures SelectorOptions(BloodTypeChoices) == ["", "O+", "O-", "A+", "A-", "B+", "B-", "AB+", "AB-"]
    ensures AllTypes !in SelectorOptions(BloodTypeChoices)
  {
    assert BloodTypeChoices[1..] == ["O+", "O-", "A+", "A-", "B+", "B-", "AB+", "AB-"];
    assert forall o :: o in BloodTypeChoices[1..] ==> |o| <= 3 < |AllTypes|;
  }
}

=== FILE: events.dfy ===
/**
 The public list of donation events: a search over title, description and
 location and a location selector narrow the list; "Clear Filters" resets
 both.
 */
module Events {
  import opened Lists
  import opened Search

  datatype Event = Event(
    id: int,
    title: string,
    date: string,
    time: string,
    location: string,
    address: string,
    spots: int,
    description: string,
    image: string)

  /** The two filter controls of the page. */
  datatype EventFilters = EventFilters(query: string, location: string)

  /** The location selector entry that imposes no restriction. */
  const AllLocations: string := "All Locations"

  /** `locations`: the "all" entry followed by the event venues. */
  const LocationChoices: seq<string> := [
    AllLocations, "Central Hospital", "State University", "Tech Plaza",
    "Community Center", "Golden Years Center", "Fire Station #5"
  ]

  predicate MatchesSearch(e: Event, query: string) {
    FieldMatches(e.title, query) || FieldMatches(e.description, query) || FieldMatches(e.location, query)
  }

  predicate MatchesLocation(e: Event, selected: string) {
    SelectorAllows(selected, AllLocations, e.location)
  }

  predicate Matches(e: Event, f: EventFilters) {
    MatchesSearch(e, f.query) && MatchesLocation(e, f.location)
  }

  /** `filteredEvents`: an order-preserving subsequence holding exactly the
      events that pass the search and the location test, each as often as
      it is listed. */
  function FilterEvents(xs: seq<Event>, f: EventFilters): (r: seq<Event>)
    ensures IsSubseq(r, xs)
    ensures forall e :: e in r ==> MatchesSearch(e, f.query) && MatchesLocation(e, f.location)
    ensures forall i :: 0 <= i < |xs| && MatchesSearch(xs[i], f.query) && MatchesLocation(xs[i], f.location) ==> xs[i] in r
    ensures forall e :: multiset(r)[e] == if Matches(e, f) then multiset(xs)[e] else 0
  {
    var keep := (e: Event) => Matches(e, f);
    FilterMembers(xs, keep);
    FilterCounts(xs, keep);
    Filter(xs, keep)
  }

  /** A location selector of `""` or "All Locations" imposes nothing; any
      other requires the event's location to equal it. */
  lemma LocationSelector(xs: seq<Event>, f: EventFilters)
    ensures f.location == "" || f.location == AllLocations ==>
      FilterEvents(xs, f) == Filter(xs, e => MatchesSearch(e, f.query))
    ensures f.location != "" && f.location != AllLocations ==>
      FilterEvents(xs, f) == Filter(xs, e => MatchesSearch(e, f.query) && e.location == f.location)
  {
    if f.location == "" || f.location == AllLocations {
      FilterSameTest(xs, e => Matches(e, f), e => MatchesSearch(e, f.query));
    } else {
      FilterSameTest(xs, e => Matches(e, f), e => MatchesSearch(e, f.query) && e.location == f.location);
    }
  }

  /** The "Clear Filters" button. */
  function ClearFilters(f: EventFilters): EventFilters {
    EventFilters("", "")
  }

  /** After "Clear Filters" every event is listed again, in order. */
  lemma ClearedFiltersShowAll(xs: seq<Event>, f: EventFilters)
    ensures FilterEvents(xs, ClearFilters(f)) == xs
  {
    forall e | e in xs ensures Matches(e, ClearFilters(f)) {
      EmptyQueryMatches(e.title);
    }
    FilterKeepsAll(xs, e => Matches(e, ClearFilters(f)));
  }

  /** The drop-down offers `""` and every venue, never the "All Locations"
      entry itself. */
  lemma LocationOptions()
    ensures SelectorOptions(LocationChoices) == [""] + LocationChoices[1..]
    ensures AllLocations !in SelectorOptions(LocationChoices)
    ensures forall i :: 1 <= i < |LocationChoices| ==> LocationChoices[i] in SelectorOptions(LocationChoices)
  {
    SelectorOptionsOffered(LocationChoices, AllLocations);
  }
}

=== FILE: http.dfy ===
/**
 The outcome of an HTTP request as the page handlers see it. The network,
 the servers and the browser's storage are not modelled: a handler receives
 the settled reply (and the stored token) as an input.
 */
module Http {
  import opened Options

  /** A settled request: a response with `ok` set and its decoded body, a
      response whose `ok` is false, or an exception (network failure, body
      that does not decode) carrying its `message`. */
  datatype Reply<T> = Ok(body: T) | NotOk | Thrown(message: string)

  /** What the `try`/`catch` around a request leaves behind: the decoded
      body, or the message the `catch` block reports. */
  datatype Settled<T> = Succeeded(value: T) | Failed(message: string)

  const NoTokenMessage: string := "No JWT token found. Please log in."

  /** `localStorage.getItem('jwt_token')` passes the `!token` test: it is
      present and not the empty string. */
  predicate HasToken(token: Option<string>) {
    token.Some? && token.value != ""
  }

  /** `error.message || fallback`. */
  function MessageOr(message: string, fallback: string): string {
    if message != "" then message else fallback
  }

  /** An authenticated `fetch` wrapped as the admin pages wrap it: a missing
      token throws before any request, a response that is not `ok` throws
      `notOk`, and the `catch` reports the thrown message or `fallback`. */
  function AuthorizedFetch<T>(token: Option<string>, reply: Reply<T>, notOk: string, fallback: string): (s: Settled<T>)
    requires notOk != "" && fallback != ""
    ensures s.Succeeded? <==> HasToken(token) && reply.Ok?
    ensures s.Succeeded? ==> s.value == reply.body
    ensures s.Failed? ==> s.message != ""
    ensures !HasToken(token) ==> s == Failed(NoTokenMessage)
    ensures HasToken(token) && reply.NotOk? ==> s == Failed(notOk)
  {
    if !HasToken(token) then Failed(MessageOr(NoTokenMessage, fallback))
    else match reply
      case Ok(body) => Succeeded(body)
      case NotOk => Failed(MessageOr(notOk, fallback))
      case Thrown(m) => Failed(MessageOr(m, fallback))
  }
}

=== FILE: lists.dfy ===
/**
 The array operations the pages apply to their record lists: `filter`,
 and `map` that swaps in a replacement record wherever a test holds.
 */
module Lists {

  /** `a` can be obtained from `b` by deleting elements, keeping the order
      of the rest. Decided greedily: matching the first element of `a`
      against the earliest equal element of `b` never loses a solution. */
  predicate IsSubseq<T(==)>(a: seq<T>, b: seq<T>)
    decreases |b|
  {
    if a == [] then true
    else if b == [] then false
    else if a[0] == b[0] then IsSubseq(a[1..], b[1..])
    else IsSubseq(a, b[1..])
  }

  /** Putting one more element in front of `b` keeps every subsequence. */
  lemma {:induction false} SubseqCons<T>(a: seq<T>, x: T, b: seq<T>)
    requires IsSubseq(a, b)
    ensures IsSubseq(a, [x] + b)
    decreases |b|, 1
  {
    if a != [] && a[0] == x {
      SubseqTail(a, b);
      assert ([x] + b)[1..] == b;
    } else {
      assert ([x] + b)[1..] == b;
    }
  }

  /** Dropping the first element of a subsequence keeps it a subsequence. */
  lemma {:induction false} SubseqTail<T>(a: seq<T>, b: seq<T>)
    requires a != [] && IsSubseq(a, b)
    ensures IsSubseq(a[1..], b)
    decreases |b|, 0
  {
    if a[0] == b[0] {
      SubseqCons(a[1..], b[0], b[1..]);
      assert [b[0]] + b[1..] == b;
    } else {
      SubseqTail(a, b[1..]);
      SubseqCons(a[1..], b[0], b[1..]);
      assert [b[0]] + b[1..] == b;
    }
  }

  /** Every sequence is a subsequence of itself. */
  lemma {:induction false} SubseqRefl<T>(a: seq<T>)
    ensures IsSubseq(a, a)
    decreases |a|
  {
    if a != [] {
      SubseqRefl(a[1..]);
    }
  }

  /** A subsequence is never longer, and holds only elements of `b`. */
  lemma {:induction false} SubseqBounds<T>(a: seq<T>, b: seq<T>)
    requires IsSubseq(a, b)
    ensures |a| <= |b|
    ensures forall x :: x in a ==> x in b
    decreases |b|
  {
    if a != [] {
      if a[0] == b[0] {
        SubseqBounds(a[1..], b[1..]);
        assert forall x :: x in a ==> x == a[0] || x in a[1..];
      } else {
        SubseqBounds(a, b[1..]);
      }
    }
  }

  /** No element occurs twice. */
  predicate NoDuplicates<T(==)>(xs: seq<T>) {
    forall i, j :: 0 <= i < j < |xs| ==> xs[i] != xs[j]
  }

  /** A list without repeats has as many distinct elements as entries. */
  lemma {:induction false} NoDuplicatesCard<T>(a: seq<T>)
    requires NoDuplicates(a)
    ensures |set x | x in a| == |a|
  {
    if a != [] {
      assert NoDuplicates(a[1..]) by {
        forall i, j | 0 <= i < j < |a[1..]| ensures a[1..][i] != a[1..][j] {
          assert a[1..][i] == a[i + 1] && a[1..][j] == a[j + 1];
        }
      }
      NoDuplicatesCard(a[1..]);
      assert (set x | x in a) == {a[0]} + (set x | x in a[1..]);
      assert a[0] !in (set x | x in a[1..]);
    }
  }

  /** A list has at most as many distinct elements as entries. */
  lemma {:induction false} SetOfSeqCard<T>(b: seq<T>)
    ensures |set x | x in b| <= |b|
  {
    if b != [] {
      SetOfSeqCard(b[1..]);
      assert (set x | x in b) == {b[0]} + (set x | x in b[1..]);
    }
  }

  /** A subset is no larger than its superset. */
  lemma {:induction false} SubsetCard<T>(a: set<T>, b: set<T>)
    requires a <= b
    ensures |a| <= |b|
    decreases a
  {
    if a != {} {
      var x :| x in a;
      SubsetCard(a - {x}, b - {x});
    }
  }

  /** A list without repeats drawn from `b` is no longer than `b`. */
  lemma NoDuplicatesWithin<T>(a: seq<T>, b: seq<T>)
    requires NoDuplicates(a)
    requires forall x :: x in a ==> x in b
    ensures |a| <= |b|
  {
    NoDuplicatesCard(a);
    SetOfSeqCard(b);
    SubsetCard(set x | x in a, set x | x in b);
  }

  /** Deleting elements never introduces a repeat. */
  lemma {:induction false} SubseqNoDuplicates<T>(a: seq<T>, b: seq<T>)
    requires IsSubseq(a, b) && NoDuplicates(b)
    ensures NoDuplicates(a)
    decreases |b|
  {
    if a != [] {
      if a[0] == b[0] {
        SubseqNoDuplicates(a[1..], b[1..]);
        SubseqBounds(a[1..], b[1..]);
        forall j | 0 < j < |a| ensures a[0] != a[j] {
          assert a[j] == a[1..][j - 1];
          assert a[j] in b[1..];
        }
      } else {
        SubseqNoDuplicates(a, b[1..]);
      }
    }
  }

  /** `Array.prototype.filter`: the elements of `xs` that satisfy `p`, in
      their original order; a subsequence of `xs`. Which elements it holds
      is stated by `FilterMembers`. */
  function Filter<T(==)>(xs: seq<T>, p: T -> bool): (r: seq<T>)
    ensures IsSubseq(r, xs)
    ensures |r| <= |xs|
  {
    if xs == [] then []
    else
      var rest := Filter(xs[1..], p);
      assert xs == [xs[0]] + xs[1..];
      if p(xs[0]) then
        assert ([xs[0]] + rest)[1..] == rest;
        [xs[0]] + rest
      else
        SubseqCons(rest, xs[0], xs[1..]);
        rest
  }

  /** A filter holds only elements of `xs` satisfying `p`, and drops no
      element of `xs` that satisfies it. */
  lemma {:induction false} FilterMembers<T(!new)>(xs: seq<T>, p: T -> bool)
    ensures forall x :: x in Filter(xs, p) <==> x in xs && p(x)
    decreases |xs|
  {
    if xs != [] {
      FilterMembers(xs[1..], p);
      assert forall x :: x in xs <==> x == xs[0] || x in xs[1..];
    }
  }

  /** A filter keeps each element that passes the test exactly as often as
      it occurs in the input, and no other element. */
  lemma {:induction false} FilterCounts<T(!new)>(xs: seq<T>, p: T -> bool)
    ensures forall x :: multiset(Filter(xs, p))[x] == if p(x) then multiset(xs)[x] else 0
    decreases |xs|
  {
    if xs != [] {
      FilterCounts(xs[1..], p);
      assert xs == [xs[0]] + xs[1..];
      assert multiset(xs) == multiset{xs[0]} + multiset(xs[1..]);
      if p(xs[0]) {
        assert Filter(xs, p) == [xs[0]] + Filter(xs[1..], p);
        assert multiset(Filter(xs, p)) == multiset{xs[0]} + multiset(Filter(xs[1..], p));
      }
    }
  }

  /** One unfolding of `Filter`, for a list written as `[x] + s`. */
  lemma FilterCons<T>(x: T, s: seq<T>, p: T -> bool)
    ensures Filter([x] + s, p) == (if p(x) then [x] else []) + Filter(s, p)
  {
    assert ([x] + s)[0] == x && ([x] + s)[1..] == s;
  }

  /** Filtering distributes over concatenation. */
  lemma {:induction false} FilterAppend<T>(xs: seq<T>, ys: seq<T>, p: T -> bool)
    ensures Filter(xs + ys, p) == Filter(xs, p) + Filter(ys, p)
    decreases |xs|
  {
    if xs == [] {
      assert xs + ys == ys;
    } else {
      var x, rest := xs[0], xs[1..];
      assert xs == [x] + rest;
      assert xs + ys == [x] + (rest + ys);
      var head := if p(x) then [x] else [];
      FilterAppend(rest, ys, p);
      FilterCons(x, rest + ys, p);
      FilterCons(x, rest, p);
      assert head + (Filter(rest, p) + Filter(ys, p)) == (head + Filter(rest, p)) + Filter(ys, p);
    }
  }

  /** Filters whose tests agree on every element of `xs` give the same
      result on `xs`. */
  lemma {:induction false} FilterSameTest<T(!new)>(xs: seq<T>, p: T -> bool, q: T -> bool)
    requires forall x :: x in xs ==> p(x) == q(x)
    ensures Filter(xs, p) == Filter(xs, q)
    decreases |xs|
  {
    if xs != [] {
      FilterSameTest(xs[1..], p, q);
    }
  }

  /** A filter whose test every element passes gives back the whole list. */
  lemma {:induction false} FilterKeepsAll<T(!new)>(xs: seq<T>, p: T -> bool)
    requires forall x :: x in xs ==> p(x)
    ensures Filter(xs, p) == xs
    decreases |xs|
  {
    if xs != [] {
      FilterKeepsAll(xs[1..], p);
      assert xs == [xs[0]] + xs[1..];
    }
  }

  /** A filter whose test no element passes gives the empty list. */
  lemma {:induction false} FilterDropsAll<T(!new)>(xs: seq<T>, p: T -> bool)
    requires forall x :: x in xs ==> !p(x)
    ensures Filter(xs, p) == []
    decreases |xs|
  {
    if xs != [] {
      FilterDropsAll(xs[1..], p);
    }
  }

  /** `xs.map(x => matches(x) ? v : x)`: same length, `v` at every position
      whose element matches, the original element everywhere else. */
  function ReplaceWhere<T>(xs: seq<T>, matches: T -> bool, v: T): (r: seq<T>)
    ensures |r| == |xs|
    ensures forall i :: 0 <= i < |xs| ==> r[i] == if matches(xs[i]) then v else xs[i]
  {
    if xs == [] then []
    else [if matches(xs[0]) then v else xs[0]] + ReplaceWhere(xs[1..], matches, v)
  }
}

=== FILE: options.dfy ===
/** A value that may be missing: JavaScript's `null` for a state slot. */
module Options {

  datatype Option<T> = None | Some(value: T)
}

=== FILE: register.dfy ===
/**
 The sign-up page: field edits, validation of the six fields into a
 field-to-message map (the e-mail checked against `/\S+@\S+\.\S+/`), the
 submit that leads to the login page, and the pre-fill from a Google
 account. The registration itself is simulated in the page; its outcome
 and the Google user-info reply are inputs here.
 */
module Register {
  import opened Options
  import opened Text
  import opened Http

  /** The keys of the form and of its error map. */
  datatype RegField = FullName | Email | Password | ConfirmPassword | BloodType | Location

  datatype RegisterForm = RegisterForm(
    fullName: string,
    email: string,
    password: string,
    confirmPassword: string,
    bloodType: string,
    location: string)

  const EmptyForm: RegisterForm := RegisterForm("", "", "", "", "", "")

  /** The blood-type drop-down: its placeholder has the value `""`. */
  const BloodTypes: seq<string> := ["A+", "A-", "B+", "B-", "AB+", "AB-", "O+", "O-", "Unknown"]

  /** The user-info document returned by Google; a field may be missing. */
  datatype GoogleUser = GoogleUser(email: Option<string>, name: Option<string>)

  const LoginRoute: string := "/login"

  /** The page's state slots, and the route it has navigated to, if any. */
  datatype RegisterPage = RegisterPage(
    form: RegisterForm,
    errors: map<RegField, string>,
    isLoading: bool,
    submissionError: string,
    user: Option<GoogleUser>,
    navigatedTo: Option<string>)

  const InitialPage: RegisterPage := RegisterPage(EmptyForm, map[], false, "", None, None)

  function Get(form: RegisterForm, f: RegField): string {
    match f
    case FullName => form.fullName
    case Email => form.email
    case Password => form.password
    case ConfirmPassword => form.confirmPassword
    case BloodType => form.bloodType
    case Location => form.location
  }

  /** `{...formData, [name]: value}`: the named field takes the value and
      every other field keeps its own. */
  function Set(form: RegisterForm, f: RegField, v: string): (r: RegisterForm)
    ensures Get(r, f) == v
    ensures forall g :: g != f ==> Get(r, g) == Get(form, g)
  {
    match f
    case FullName => form.(fullName := v)
    case Email => form.(email := v)
    case Password => form.(password := v)
    case ConfirmPassword => form.(confirmPassword := v)
    case BloodType => form.(bloodType := v)
    case Location => form.(location := v)
  }

  /** `handleChange`: the field takes the typed value and, if it carried a
      non-empty message, that message is blanked (the key stays, with
      `""`). Afterwards the edited field shows no message; every other
      message and every other part of the page is kept. */
  function HandleChange(p: RegisterPage, f: RegField, v: string): (r: RegisterPage)
    ensures Get(r.form, f) == v
    ensures forall g :: g != f ==> Get(r.form, g) == Get(p.form, g)
    ensures f !in r.errors || r.errors[f] == ""
    ensures r.errors.Keys == p.errors.Keys
    ensures forall g :: g in p.errors && g != f ==> r.errors[g] == p.errors[g]
    ensures r.(form := p.form, errors := p.errors) == p
  {
    var form := Set(p.form, f, v);
    if f in p.errors && p.errors[f] != "" then p.(form := form, errors := p.errors[f := ""])
    else p.(form := form)
  }

  // ---------------------------------------------------------------------
  // The e-mail pattern /\S+@\S+\.\S+/
  // ---------------------------------------------------------------------

  /** Every character of `s[i..j]` is a `\S` character. */
  predicate NonSpaceRun(s: string, i: int, j: int)
    requires 0 <= i <= j <= |s|
  {
    forall k :: i <= k < j ==> !IsWhitespace(s[k])
  }

  /** The pattern matches with its `@` at `at` and its `.` at `dot`: at
      least one `\S` right before the `@`, a non-empty run of `\S` between
      the two, and at least one `\S` right after the `.`. The pattern is not
      anchored, so nothing is required of the rest of the string; and `\S`
      itself matches `@` and `.`. */
  predicate PatternAt(s: string, at: int, dot: int) {
    && 0 < at && at + 1 < dot && dot + 1 < |s|
    && s[at] == '@' && s[dot] == '.'
    && !IsWhitespace(s[at - 1]) && !IsWhitespace(s[dot + 1])
    && NonSpaceRun(s, at + 1, dot)
  }

  /** `/\S+@\S+\.\S+/.test(s)`. A match needs at least five characters,
      among them an `@` and a `.`. */
  predicate MatchesEmailPattern(s: string)
    ensures MatchesEmailPattern(s) ==> |s| >= 5 && '@' in s && '.' in s
  {
    exists at, dot :: 0 < at < dot < |s| && PatternAt(s, at, dot)
  }

  /** The pattern test as a scan: for each `@` preceded by a `\S`, walk
      the run of `\S` after it looking for a `.` that has a character
      between it and the `@` and a `\S` after it. */
  method TestEmailPattern(s: string) returns (found: bool)
    ensures found <==> MatchesEmailPattern(s)
  {
    var at := 1;
    while at < |s|
      invariant 1 <= at <= |s| || |s| == 0
      invariant forall a, d :: 0 < a < at && PatternAt(s, a, d) ==> false
    {
      if s[at] == '@' && !IsWhitespace(s[at - 1]) {
        var dot := at + 1;
        while dot + 1 < |s| && !IsWhitespace(s[dot])
          invariant at + 1 <= dot <= |s|
          invariant NonSpaceRun(s, at + 1, dot)
          invariant forall d :: d < dot && PatternAt(s, at, d) ==> false
        {
          if s[dot] == '.' && at + 1 < dot && !IsWhitespace(s[dot + 1]) {
            assert PatternAt(s, at, dot);
            return true;
          }
          dot := dot + 1;
        }
      }
      at := at + 1;
    }
    return false;
  }

  /** A string the pattern matches is never blank, so the "required" test
      only decides which message a failing e-mail gets. */
  lemma PatternNotBlank(s: string)
    requires MatchesEmailPattern(s)
    ensures !IsBlank(s)
  {
    var at, dot :| 0 < at < dot < |s| && PatternAt(s, at, dot);
    assert s[at] == '@';
  }

  // ---------------------------------------------------------------------
  // Validation
  // ---------------------------------------------------------------------

  const FullNameRequired: string := "Full name is required"
  const EmailRequired: string := "Email is required"
  const EmailInvalid: string := "Email is invalid"
  const PasswordRequired: string := "Password is required"
  const PasswordTooShort: string := "Password must be at least 8 characters"
  const PasswordsDiffer: string := "Passwords do not match"
  const BloodTypeRequired: string := "Please select your blood type"

  /** The shortest accepted password, in UTF-16 code units. */
  const MinPasswordLength: nat := 8

  const AllFields: set<RegField> := {FullName, Email, Password, ConfirmPassword, BloodType, Location}

  /** The message one rule of `validate` records for field `f`, or `""`
      when it records none. */
  function FieldError(form: RegisterForm, f: RegField): string {
    match f
    case FullName => if Trim(form.fullName) == "" then FullNameRequired else ""
    case Email =>
      if Trim(form.email) == "" then EmailRequired
      else if !MatchesEmailPattern(form.email) then EmailInvalid
      else ""
    case Password =>
      if form.password == "" then PasswordRequired
      else if Utf16Length(form.password) < MinPasswordLength then PasswordTooShort
      else ""
    case ConfirmPassword => if form.password != form.confirmPassword then PasswordsDiffer else ""
    case BloodType => if form.bloodType == "" then BloodTypeRequired else ""
    case Location => ""
  }

  /** When the rule for `f` fails: a blank name; an e-mail the pattern does
      not match (a blank one included); a password shorter than eight
      UTF-16 code units (the empty one included); a confirmation that
      differs from the password; no blood type. The location is optional. */
  predicate FieldFails(form: RegisterForm, f: RegField) {
    match f
    case FullName => IsBlank(form.fullName)
    case Email => !MatchesEmailPattern(form.email)
    case Password => Utf16Length(form.password) < MinPasswordLength
    case ConfirmPassword => form.password != form.confirmPassword
    case BloodType => form.bloodType == ""
    case Location => false
  }

  /** A blood type taken from the drop-down passes the rule, "Unknown"
      included; only the placeholder fails it. */
  lemma DropDownBloodType(form: RegisterForm)
    requires form.bloodType == "" || form.bloodType in BloodTypes
    ensures FieldFails(form, BloodType) <==> form.bloodType == ""
  {
  }

  /** A rule records a message exactly when it fails. */
  lemma FieldErrorMeaning(form: RegisterForm, f: RegField)
    ensures FieldError(form, f) != "" <==> FieldFails(form, f)
  {
    match f
    case FullName =>
    case Email =>
      if MatchesEmailPattern(form.email) {
        PatternNotBlank(form.email);
      }
    case Password =>
    case _ =>
  }

  /** `validate`: the error map holds exactly the fields whose rule fails,
      each with that rule's (non-empty) message; the form is accepted when
      the map is empty. */
  function Validate(form: RegisterForm): (errors: map<RegField, string>)
    ensures forall f :: f in errors <==> FieldFails(form, f)
    ensures forall f :: f in errors ==> errors[f] == FieldError(form, f) && errors[f] != ""
  {
    var errors := map f | f in AllFields && FieldError(form, f) != "" :: FieldError(form, f);
    assert forall f :: f in errors <==> FieldFails(form, f) by {
      forall f ensures f in errors <==> FieldFails(form, f) {
        FieldErrorMeaning(form, f);
      }
    }
    errors
  }

  /** A failing e-mail is reported as missing when blank and as invalid
      otherwise; a failing password as missing when empty and as too short
      otherwise. */
  lemma EmailAndPasswordMessages(form: RegisterForm)
    ensures Email in Validate(form) ==>
      Validate(form)[Email] == if IsBlank(form.email) then EmailRequired else EmailInvalid
    ensures Password in Validate(form) ==>
      Validate(form)[Password] == if form.password == "" then PasswordRequired else PasswordTooShort
  {
  }

  /** Every rule of the form holds, spelled out field by field. */
  predicate RulesHold(form: RegisterForm) {
    && !IsBlank(form.fullName)
    && MatchesEmailPattern(form.email)
    && Utf16Length(form.password) >= MinPasswordLength
    && form.confirmPassword == form.password
    && form.bloodType != ""
  }

  /** The form is accepted exactly when every rule holds. */
  lemma ValidateAccepts(form: RegisterForm)
    ensures Validate(form) == map[] <==> RulesHold(form)
  {
    var e := Validate(form);
    if e == map[] {
      assert FullName !in e && Email !in e && Password !in e;
      assert ConfirmPassword !in e && BloodType !in e;
    } else {
      var f :| f in e;
      assert FieldFails(form, f);
    }
  }

  // ---------------------------------------------------------------------
  // Submit and Google pre-fill
  // ---------------------------------------------------------------------

  const RegistrationFailed: string := "Registration failed. Please try again."
  const UserInfoFailed: string := "Failed to get user information"
  const GoogleLoginFailed: string := "Google login failed"

  /** `handleSubmit`: the banner is cleared and the error map replaced by
      the validation result. An invalid form stops there. A valid one is
      registered: on success the page navigates to the login route, on
      failure the banner reports it; loading is off at the end. The form
      and the Google user are never touched. */
  function Submit(p: RegisterPage, succeeded: bool): (r: RegisterPage)
    ensures r.errors == Validate(p.form)
    ensures r.form == p.form && r.user == p.user
    ensures r.errors != map[] ==>
      r.submissionError == "" && r.isLoading == p.isLoading && r.navigatedTo == p.navigatedTo
    ensures r.errors == map[] ==> !r.isLoading
    ensures r.errors == map[] && succeeded ==> r.navigatedTo == Some(LoginRoute) && r.submissionError == ""
    ensures r.errors == map[] && !succeeded ==> r.navigatedTo == p.navigatedTo && r.submissionError == RegistrationFailed
  {
    var p1 := p.(submissionError := "", errors := Validate(p.form));
    if p1.errors != map[] then p1
    else if succeeded then p1.(navigatedTo := Some(LoginRoute), isLoading := false)
    else p1.(submissionError := RegistrationFailed, isLoading := false)
  }

  /** The page navigates to the login route only from a form every rule
      accepts. */
  lemma SubmitNavigatesOnlyWhenValid(p: RegisterPage, succeeded: bool)
    requires p.navigatedTo == None
    ensures Submit(p, succeeded).navigatedTo.Some? <==> RulesHold(p.form) && succeeded
  {
    ValidateAccepts(p.form);
  }

  /** `name || ''`: a missing value reads as the empty string. */
  function OrEmpty(v: Option<string>): string {
    match v
    case None => ""
    case Some(s) => s
  }

  /** `handleGoogleSuccess`, given the user-info reply: on success the user
      is kept, the name and e-mail fields are overwritten from it and every
      message is dropped, the other four fields untouched; when the reply
      is not `ok` or does not decode, only the banner changes. */
  function GoogleSuccess(p: RegisterPage, reply: Reply<GoogleUser>): (r: RegisterPage)
    ensures reply.Ok? ==>
      && r.user == Some(reply.body)
      && r.form.fullName == OrEmpty(reply.body.name)
      && r.form.email == OrEmpty(reply.body.email)
      && r.errors == map[]
      && r.submissionError == p.submissionError
    ensures forall g :: g != FullName && g != Email ==> Get(r.form, g) == Get(p.form, g)
    ensures !reply.Ok? ==> r == p.(submissionError := UserInfoFailed)
    ensures r.isLoading == p.isLoading && r.navigatedTo == p.navigatedTo
  {
    match reply
    case Ok(u) =>
      p.(user := Some(u), form := p.form.(fullName := OrEmpty(u.name), email := OrEmpty(u.email)), errors := map[])
    case _ => p.(submissionError := UserInfoFailed)
  }

  /** The `onError` callback of the Google login. */
  function GoogleError(p: RegisterPage): (r: RegisterPage)
    ensures r.submissionError == GoogleLoginFailed && r.submissionError != ""
    ensures r.(submissionError := p.submissionError) == p
  {
    p.(submissionError := GoogleLoginFailed)
  }

  /** After a successful pre-fill, whether the name and e-mail pass
      depends on the Google account alone: a non-blank name and an e-mail
      of the right shape leave no message for those two fields, whatever
      was typed before. */
  lemma PrefillDecidesNameAndEmail(p: RegisterPage, u: GoogleUser)
    ensures var r := GoogleSuccess(p, Ok(u));
      && (FullName in Validate(r.form) <==> IsBlank(OrEmpty(u.name)))
      && (Email in Validate(r.form) <==> !MatchesEmailPattern(OrEmpty(u.email)))
  {
  }

  /** A Google account without a name leaves the name field empty, which
      validation then flags. */
  lemma PrefillWithoutName(p: RegisterPage, u: GoogleUser)
    requires u.name == None
    ensures FullName in Validate(GoogleSuccess(p, Ok(u)).form)
  {
    assert IsBlank("");
  }
}

=== FILE: search.dfy ===
/**
 The search box and drop-down selector shared by the appointment, donor,
 event and user lists: a case-insensitive substring search, and an
 exact-match selector whose empty value or "all" label imposes nothing.
 */
module Search {
  import opened Text

  /** `field.toLowerCase().includes(query.toLowerCase())`. A query longer
      than the field never matches. */
  predicate FieldMatches(field: string, query: string)
    ensures |query| > |field| ==> !FieldMatches(field, query)
  {
    Includes(Lower(field), Lower(query))
  }

  /** `query` occurs in `field` at index `i` when ASCII letter case is
      ignored. */
  predicate OccursIgnoringCase(field: string, query: string, i: int) {
    && 0 <= i && i + |query| <= |field|
    && forall k :: 0 <= k < |query| ==> LowerChar(field[i + k]) == LowerChar(query[k])
  }

  /** The search matches a field exactly when the query occurs somewhere in
      it up to letter case. */
  lemma FieldMatchesIgnoringCase(field: string, query: string)
    ensures FieldMatches(field, query) <==> exists i :: OccursIgnoringCase(field, query, i)
  {
    var lf, lq := Lower(field), Lower(query);
    forall i | 0 <= i && i + |query| <= |field|
      ensures OccursAt(lf, lq, i) <==> OccursIgnoringCase(field, query, i)
    {
      if OccursAt(lf, lq, i) {
        forall k | 0 <= k < |query|
          ensures LowerChar(field[i + k]) == LowerChar(query[k])
        {
          assert lf[i..i + |lq|][k] == lq[k];
        }
      }
      if OccursIgnoringCase(field, query, i) {
        assert lf[i..i + |lq|] == lq;
      }
    }
  }

  /** The empty query matches every field. */
  lemma EmptyQueryMatches(field: string)
    ensures FieldMatches(field, "")
  {
    assert OccursAt(Lower(field), Lower(""), 0);
  }

  /** Queries that agree up to letter case match the same fields. */
  lemma MatchIgnoresQueryCase(field: string, q1: string, q2: string)
    requires |q1| == |q2|
    requires forall k :: 0 <= k < |q1| ==> LowerChar(q1[k]) == LowerChar(q2[k])
    ensures FieldMatches(field, q1) == FieldMatches(field, q2)
  {
    assert Lower(q1) == Lower(q2);
  }

  /** `selector === '' || selector === allLabel || value === selector`: the
      empty value and the "all" label let everything through, and any other
      selector only the values equal to it. */
  predicate SelectorAllows(selector: string, allLabel: string, value: string)
    ensures selector == "" || selector == allLabel ==> SelectorAllows(selector, allLabel, value)
    ensures selector != "" && selector != allLabel ==> (SelectorAllows(selector, allLabel, value) <==> value == selector)
  {
    selector == "" || selector == allLabel || value == selector
  }

  /** The option values of a `<select>` that lists `""` (shown with the
      "all" caption) and then `choices.slice(1)`: the first entry of
      `choices` is the "all" label and is replaced by the empty value. */
  function SelectorOptions(choices: seq<string>): seq<string> {
    [""] + (if |choices| == 0 then [] else choices[1..])
  }

  /** When the "all" label heads `choices` and nowhere else, the drop-down
      offers the empty value and every other choice, never the label
      itself; picking an offered value other than `""` filters by exact
      equality. */
  lemma SelectorOptionsOffered(choices: seq<string>, allLabel: string)
    requires |choices| > 0 && choices[0] == allLabel && allLabel != ""
    requires forall i :: 1 <= i < |choices| ==> choices[i] != allLabel
    ensures allLabel !in SelectorOptions(choices)
    ensures forall i :: 1 <= i < |choices| ==> choices[i] in SelectorOptions(choices)
    ensures |SelectorOptions(choices)| == |choices|
    ensures forall o, v :: o in SelectorOptions(choices) && o != "" ==> (SelectorAllows(o, allLabel, v) <==> v == o)
  {
    var opts := SelectorOptions(choices);
    forall i | 1 <= i < |choices| ensures choices[i] in opts {
      assert opts[i] == choices[i];
    }
  }
}

=== FILE: sidebar.dfy ===
/**
 The admin sidebar's highlighting of the current page: a link is shown as
 active when the current route starts with its path, except that a link
 to `/admin` itself would be active only on the donors page.
 */
module AdminSidebar {
  import opened Text

  const AdminRoot: string := "/admin"
  const DonorsPath: string := "/admin/donors"

  /** The paths of the five sidebar links, in display order. */
  const NavPaths: seq<string> :=
    ["/admin/donors", "/admin/add-event", "/admin/AddCenters", "/admin/users", "/admin/userTracking"]

  /** `isActive(path)` for the current route `pathname`. The `/admin`
      special case only narrows the `startsWith` rule: an active link's path
      always starts the route. */
  predicate IsActive(path: string, pathname: string)
    ensures IsActive(path, pathname) ==> IsPrefix(path, pathname)
  {
    if path == AdminRoot then pathname == DonorsPath
    else IsPrefix(path, pathname)
  }

  /** A link to `/admin` is active on the donors page and nowhere else. */
  lemma AdminRootOnlyOnDonors(pathname: string)
    ensures IsActive(AdminRoot, pathname) <==> pathname == DonorsPath
  {
  }

  /** Any other link is active on its own route and on every route below
      it, and only there. */
  lemma ActiveBelowPath(path: string, pathname: string)
    requires path != AdminRoot
    ensures IsActive(path, pathname) <==> exists rest :: pathname == path + rest
  {
    if IsPrefix(path, pathname) {
      assert pathname == path + pathname[|path|..];
    }
    if exists rest :: pathname == path + rest {
      var rest :| pathname == path + rest;
      assert pathname[..|path|] == path;
    }
  }

  /** Every link but the `/admin` one is active on its own route, and stays
      active on a longer route that extends it. */
  lemma ActiveOnOwnRoute(path: string, suffix: string)
    requires path != AdminRoot
    ensures IsActive(path, path)
    ensures IsActive(path, path + suffix)
  {
    assert (path + suffix)[..|path|] == path;
  }

  /** The special case is unreachable from the sidebar: no link uses
      `/admin`. */
  lemma NoLinkToRoot()
    ensures AdminRoot !in NavPaths
  {
    assert forall i :: 0 <= i < |NavPaths| ==> |NavPaths[i]| != |AdminRoot|;
  }

  /** Two strings that differ at a position both have are not prefixes
      of each other. */
  lemma DifferAt(a: string, b: string, k: int)
    requires 0 <= k < |a| && k < |b| && a[k] != b[k]
    ensures !IsPrefix(a, b) && !IsPrefix(b, a)
  {
    if |a| <= |b| {
      assert b[..|a|][k] == b[k];
    } else {
      assert a[..|b|][k] == a[k];
    }
  }

  /** No sidebar path is a prefix of another: all differ in their eighth
      character except the two `/admin/user...` paths, which differ in
      their twelfth. */
  lemma NavPathsPrefixFree(i: int, j: int)
    requires 0 <= i < |NavPaths| && 0 <= j < |NavPaths| && i != j
    ensures !IsPrefix(NavPaths[i], NavPaths[j])
  {
    var a, b := NavPaths[i], NavPaths[j];
    if (i == 3 && j == 4) || (i == 4 && j == 3) {
      DifferAt(a, b, 11);
    } else {
      DifferAt(a, b, 7);
    }
  }

  /** Two prefixes of one string are prefixes of each other. */
  lemma PrefixesNest(a: string, b: string, s: string)
    ensures IsPrefix(a, s) && IsPrefix(b, s) ==> IsPrefix(a, b) || IsPrefix(b, a)
  {
    if |a| <= |b| <= |s| {
      assert s[..|b|][..|a|] == s[..|a|];
    } else if |b| < |a| <= |s| {
      assert s[..|a|][..|b|] == s[..|b|];
    }
  }

  /** On any route at most one sidebar link is highlighted. */
  lemma AtMostOneActive(pathname: string, i: int, j: int)
    requires 0 <= i < |NavPaths| && 0 <= j < |NavPaths|
    ensures IsActive(NavPaths[i], pathname) && IsActive(NavPaths[j], pathname) ==> i == j
  {
    NoLinkToRoot();
    if i != j {
      PrefixesNest(NavPaths[i], NavPaths[j], pathname);
      NavPathsPrefixFree(i, j);
      NavPathsPrefixFree(j, i);
    }
  }
}

=== FILE: text.dfy ===
/**
 The JavaScript string operations the forms and list pages rely on, over
 `string` (a sequence of Unicode scalar values): ASCII case folding,
 `trim`, `includes`, `startsWith`, and `length` counted in UTF-16 code units.
 */
module Text {

  /** The WhiteSpace and LineTerminator code points of ECMAScript: the set
      `String.prototype.trim` removes and the regular-expression class `\s`
      matches. */
  predicate IsWhitespace(c: char) {
    || c == '\t' || c == '\n' || c == '\U{000B}' || c == '\U{000C}' || c == '\r'
    || c == ' ' || c == '\U{00A0}' || c == '\U{1680}'
    || ('\U{2000}' <= c <= '\U{200A}')
    || c == '\U{2028}' || c == '\U{2029}' || c == '\U{202F}' || c == '\U{205F}'
    || c == '\U{3000}' || c == '\U{FEFF}'
  }

  /** Every character of `s` is white space (the empty string included). */
  predicate IsBlank(s: string) {
    forall i :: 0 <= i < |s| ==> IsWhitespace(s[i])
  }

  /** Leading white space removed. */
  function TrimStart(s: string): (r: string)
    ensures |r| <= |s| && r == s[|s| - |r|..]
    ensures IsBlank(s[..|s| - |r|])
    ensures r == [] || !IsWhitespace(r[0])
  {
    if |s| > 0 && IsWhitespace(s[0]) then
      var t := s[1..];
      var r := TrimStart(t);
      assert t[|t| - |r|..] == s[|s| - |r|..];
      assert s[..|s| - |r|] == [s[0]] + t[..|t| - |r|];
      r
    else s
  }

  /** Trailing white space removed. */
  function TrimEnd(s: string): (r: string)
    ensures |r| <= |s| && r == s[..|r|]
    ensures IsBlank(s[|r|..])
    ensures r == [] || !IsWhitespace(r[|r| - 1])
  {
    if |s| > 0 && IsWhitespace(s[|s| - 1]) then
      var t := s[..|s| - 1];
      var r := TrimEnd(t);
      assert t[..|r|] == s[..|r|];
      assert s[|r|..] == t[|r|..] + [s[|s| - 1]];
      r
    else s
  }

  /** A prefix `r` of a suffix `t` of `s` is the slice of `s` between the
      two cut points, and what `t` has after `r` is what `s` has after it. */
  lemma PrefixOfSuffix(s: string, t: string, r: string)
    requires |t| <= |s| && t == s[|s| - |t|..]
    requires |r| <= |t| && r == t[..|r|]
    ensures s[|s| - |t|..|s| - |t| + |r|] == r
    ensures s[|s| - |t| + |r|..] == t[|r|..]
  {
  }

  /** `String.prototype.trim`. The result is the input with a blank prefix
      and a blank suffix cut off; it is empty exactly when the input is
      blank, and otherwise starts and ends with a non-space character, so
      nothing more could have been cut. */
  function Trim(s: string): (r: string)
    ensures exists i, j :: 0 <= i <= j <= |s| && r == s[i..j] && IsBlank(s[..i]) && IsBlank(s[j..])
    ensures r == [] <==> IsBlank(s)
    ensures r != [] ==> !IsWhitespace(r[0]) && !IsWhitespace(r[|r| - 1])
    ensures |r| <= |s|
  {
    var t := TrimStart(s);
    var r := TrimEnd(t);
    var i := |s| - |t|;
    PrefixOfSuffix(s, t, r);
    assert IsBlank(s[..i]) && IsBlank(s[i + |r|..]);
    if r == [] then
      assert s == s[..i] + s[i..];
      r
    else
      assert s[i] == r[0];
      r
  }

  predicate IsUpper(c: char) { 'A' <= c <= 'Z' }
  predicate IsLower(c: char) { 'a' <= c <= 'z' }

  /** ASCII case folding of one character; every other character is kept. */
  function LowerChar(c: char): char {
    if IsUpper(c) then (c as int + 32) as char else c
  }

  function UpperChar(c: char): char {
    if IsLower(c) then (c as int - 32) as char else c
  }

  /** `toLowerCase`, restricted to ASCII letters. */
  function Lower(s: string): (r: string)
    ensures |r| == |s|
    ensures forall i :: 0 <= i < |s| ==> r[i] == LowerChar(s[i])
  {
    if s == [] then [] else [LowerChar(s[0])] + Lower(s[1..])
  }

  /** `s.startsWith(p)`. */
  predicate IsPrefix(p: string, s: string) {
    |p| <= |s| && s[..|p|] == p
  }

  /** `needle` sits in `hay` starting at index `i`. */
  predicate OccursAt(hay: string, needle: string, i: int) {
    0 <= i && i + |needle| <= |hay| && hay[i..i + |needle|] == needle
  }

  /** `hay.includes(needle)`, by trying every start position in turn. It
      holds exactly when `needle` occurs as a contiguous slice of `hay`. */
  function Includes(hay: string, needle: string): (r: bool)
    ensures r <==> exists i :: OccursAt(hay, needle, i)
    decreases |hay|
  {
    if IsPrefix(needle, hay) then
      assert OccursAt(hay, needle, 0);
      true
    else if |hay| == 0 then
      false
    else
      var r := Includes(hay[1..], needle);
      if r then
        var i :| OccursAt(hay[1..], needle, i);
        assert hay[i + 1..i + 1 + |needle|] == hay[1..][i..i + |needle|];
        assert OccursAt(hay, needle, i + 1);
        true
      else
        assert forall i :: OccursAt(hay, needle, i) ==> i == 0 || OccursAt(hay[1..], needle, i - 1) by {
          forall i | OccursAt(hay, needle, i) && i != 0
            ensures OccursAt(hay[1..], needle, i - 1)
          {
            assert hay[1..][i - 1..i - 1 + |needle|] == hay[i..i + |needle|];
          }
        }
        false
  }

  /** The number of UTF-16 code units JavaScript's `length` reports:
      a code point above U+FFFF takes a surrogate pair. */
  function Utf16Length(s: string): (n: nat)
    ensures |s| <= n <= 2 * |s|
    ensures n == |s| <==> forall i :: 0 <= i < |s| ==> s[i] as int <= 0xFFFF
  {
    if s == [] then 0
    else
      var n := (if s[0] as int > 0xFFFF then 2 else 1) + Utf16Length(s[1..]);
      assert forall i :: 1 <= i < |s| ==> s[i] == s[1..][i - 1];
      n
  }

  /** `s.charAt(0).toUpperCase() + s.slice(1)`, with ASCII case mapping. */
  function Capitalize(s: string): (r: string)
    ensures |r| == |s|
    ensures |s| > 0 ==> r[0] == UpperChar(s[0]) && r[1..] == s[1..]
    ensures r == [] <==> s == []
  {
    if s == [] then [] else [UpperChar(s[0])] + s[1..]
  }
}

=== FILE: users.dfy ===
/**
 User management in the admin console: the user list is loaded from the
 authentication service, searched, and edited by deleting a user or
 changing a user's role through a modal. Each server call is an input: the
 stored token and the settled reply.
 */
module Users {
  import opened Options
  import opened Lists
  import opened Search
  import opened Http

  datatype User = User(
    id: int,
    username: string,
    email: string,
    bloodType: string,
    role: string,
    dateOfBirth: string)

  /** The page's state slots. */
  datatype UsersPage = UsersPage(
    users: seq<User>,
    searchQuery: string,
    errorMessage: Option<string>,
    isLoading: bool,
    selectedUser: Option<User>,
    showRoleModal: bool)

  const InitialPage: UsersPage := UsersPage([], "", None, false, None, false)

  const FetchNotOk: string := "Failed to fetch users"
  const FetchFallback: string := "Failed to load users"
  const DeleteNotOk: string := "Failed to delete user"
  const UpdateNotOk: string := "Failed to update user role"

  /** The search looks at username, e-mail and role. */
  predicate MatchesSearch(u: User, query: string) {
    FieldMatches(u.username, query) || FieldMatches(u.email, query) || FieldMatches(u.role, query)
  }

  /** `filteredUsers`: an order-preserving subsequence holding exactly the
      users the search matches, each as often as it is listed; the
      "Showing n of m" footer never shows n above m. */
  function FilterUsers(users: seq<User>, query: string): (r: seq<User>)
    ensures IsSubseq(r, users)
    ensures |r| <= |users|
    ensures forall u :: u in r ==> MatchesSearch(u, query)
    ensures forall i :: 0 <= i < |users| && MatchesSearch(users[i], query) ==> users[i] in r
    ensures forall u :: multiset(r)[u] == if MatchesSearch(u, query) then multiset(users)[u] else 0
  {
    var keep := (u: User) => MatchesSearch(u, query);
    FilterMembers(users, keep);
    FilterCounts(users, keep);
    Filter(users, keep)
  }

  /** `fetchUsers`, from its start to its `finally`: it clears the error,
      and either installs the server's list or reports an error and keeps
      the old list; loading is off at the end either way. */
  function FetchUsers(p: UsersPage, token: Option<string>, reply: Reply<seq<User>>): (r: UsersPage)
    ensures !r.isLoading
    ensures HasToken(token) && reply.Ok? ==> r.users == reply.body && r.errorMessage == None
    ensures !(HasToken(token) && reply.Ok?) ==>
      r.users == p.users && r.errorMessage.Some? && r.errorMessage.value != ""
    ensures !HasToken(token) ==> r.errorMessage == Some(NoTokenMessage)
    ensures r.searchQuery == p.searchQuery && r.selectedUser == p.selectedUser && r.showRoleModal == p.showRoleModal
  {
    var started := p.(isLoading := true, errorMessage := None);
    var settled :=
      match AuthorizedFetch(token, reply, FetchNotOk, FetchFallback)
      case Succeeded(data) => started.(users := data)
      case Failed(m) => started.(errorMessage := Some(m));
    settled.(isLoading := false)
  }

  /** `handleDeleteUser`. Declining the confirmation changes nothing. A
      successful call removes exactly the users with that id and keeps
      every other user, as often as it was listed and in order; a failed one keeps the list and reports an error.
      Nothing else on the page changes. */
  function DeleteUser(p: UsersPage, userId: int, confirmed: bool, token: Option<string>, reply: Reply<()>): (r: UsersPage)
    ensures !confirmed ==> r == p
    ensures confirmed && HasToken(token) && reply.Ok? ==>
      && IsSubseq(r.users, p.users)
      && (forall u :: u in r.users <==> u in p.users && u.id != userId)
      && (forall u :: multiset(r.users)[u] == if u.id == userId then 0 else multiset(p.users)[u])
      && r.errorMessage == p.errorMessage
    ensures confirmed && !(HasToken(token) && reply.Ok?) ==>
      r.users == p.users && r.errorMessage.Some? && r.errorMessage.value != ""
    ensures r.(users := p.users, errorMessage := p.errorMessage) == p
  {
    if !confirmed then p
    else match AuthorizedFetch(token, reply, DeleteNotOk, DeleteNotOk)
      case Succeeded(_) =>
        var keep := (u: User) => u.id != userId;
        FilterMembers(p.users, keep);
        FilterCounts(p.users, keep);
        p.(users := Filter(p.users, keep))
      case Failed(m) => p.(errorMessage := Some(m))
  }

  /** The "Change Role" button of a row. */
  function OpenRoleModal(p: UsersPage, u: User): (r: UsersPage)
    ensures r.showRoleModal && r.selectedUser == Some(u)
    ensures r.(selectedUser := p.selectedUser, showRoleModal := p.showRoleModal) == p
  {
    p.(selectedUser := Some(u), showRoleModal := true)
  }

  /** The modal's "Cancel" button. */
  function CancelRoleModal(p: UsersPage): (r: UsersPage)
    ensures !r.showRoleModal && r.selectedUser == None
    ensures r.(selectedUser := p.selectedUser, showRoleModal := p.showRoleModal) == p
  {
    p.(selectedUser := None, showRoleModal := false)
  }

  /** `handleUpdateRole`. On success every user with that id is replaced by
      the record the server returns, every other user stays where it was,
      the list keeps its length, and the modal closes. On failure the list
      and the modal stay and an error is reported. */
  function UpdateRole(p: UsersPage, userId: int, token: Option<string>, reply: Reply<User>): (r: UsersPage)
    ensures HasToken(token) && reply.Ok? ==>
      && |r.users| == |p.users|
      && (forall i :: 0 <= i < |p.users| ==>
            r.users[i] == if p.users[i].id == userId then reply.body else p.users[i])
      && !r.showRoleModal && r.selectedUser == None
      && r.errorMessage == p.errorMessage
    ensures !(HasToken(token) && reply.Ok?) ==>
      && r.users == p.users && r.showRoleModal == p.showRoleModal && r.selectedUser == p.selectedUser
      && r.errorMessage.Some? && r.errorMessage.value != ""
    ensures r.searchQuery == p.searchQuery && r.isLoading == p.isLoading
  {
    match AuthorizedFetch(token, reply, UpdateNotOk, UpdateNotOk)
    case Succeeded(updated) =>
      p.(users := ReplaceWhere(p.users, (u: User) => u.id == userId, updated), showRoleModal := false, selectedUser := None)
    case Failed(m) => p.(errorMessage := Some(m))
  }

  /** The role modal is on screen. */
  predicate ModalShown(p: UsersPage) {
    p.showRoleModal && p.selectedUser.Some?
  }

  /** Whatever the page showed before, a successful role update or a
      cancel takes the modal off the screen, and opening it puts it on. */
  lemma ModalLifecycle(p: UsersPage, u: User, userId: int, token: Option<string>, reply: Reply<User>)
    ensures ModalShown(OpenRoleModal(p, u))
    ensures !ModalShown(CancelRoleModal(p))
    ensures HasToken(token) && reply.Ok? ==> !ModalShown(UpdateRole(p, userId, token, reply))
    ensures !(HasToken(token) && reply.Ok?) ==> ModalShown(UpdateRole(p, userId, token, reply)) == ModalShown(p)
  {
  }
}
